=== FILE: README.md ===
# Inventory query engine of the tractor-head finder

This project models the query engine of a tractor-head sales assistant.
The engine holds a table of vehicle records loaded once from the inventory
file. It answers three kinds of questions:

- a structured search: about fifteen filter rules joined with AND, a ranking
  by price, mileage or power that puts unknown values last, and a cut to at
  most `limit` results;
- a lookup of one vehicle by identifier, with a not-found answer;
- a side-by-side comparison of 2 to 5 vehicles. It reports every unknown
  identifier, or it returns the vehicles in the order asked together with a
  comparison table.

On ingestion the table is normalised. Brand, model, cabin and configuration
are upper-cased. Fuel is lower-cased. Dutch gearbox labels are translated to
English, and flag columns are parsed from text. Repeated column names are
renamed. Every attribute except the identifier is optional. Ingestion keeps an
unknown value unknown, never 0 or false. Three places then treat an unknown
flag like false: the default damage rule, a "not new" filter, and the
Yes/No display (`SearchInventory.DamageRule`,
`SearchInventory.NumericFiltersMeaning`, `Schemas.DetailFlagLines`).

Files:

- `wrappers.dfy`: `Option`.
- `strings.dfy` (module `Strings`): Python's `strip()` (with Python's set of
  whitespace), ASCII upper and lower case, substring containment, and the
  decimal text of an integer.
- `schemas.dfy` (module `Schemas`): the `TractorHead` record, the
  `SearchFilters` value with its defaults, and the branches of the one-line
  summary and the detailed view.
- `data_loader.dfy` (module `DataLoader`): flag parsing, per-column
  normalisation, the column-renaming loop, the lazily loaded table as the
  class `InventoryStore`, lookup by identifier, and distinct column values.
- `search_inventory.dfy` (module `SearchInventory`): the filter rules,
  ranking, truncation, the comparison table, the comparison outcome, and the
  entry points that run on the store.

The search is modelled as a selection over a `seq`, then a sort, then a
prefix. The sort is a stable insertion sort. It refines the source's sort,
which promises nothing about the order of rows whose keys are equal. So the
lemmas claim only that the result is ordered, is a permutation of the
matches, and is their top `limit`. The loops of the source stay loops:
column renaming (`DataLoader.DedupColumns`), identifier resolution in the
comparison (`SearchInventory.ResolveIds`) and the building of the comparison
text (`SearchInventory.BuildComparisonText`). Each loop is proved equal to a
specification function, and the properties are proved about that function.

## Model

| member | source | states |
|---|---|---|
| Schemas.NewTractorHead | app/schemas/schemas.py:18-51 | A record built from an identifier alone keeps that identifier, and every other attribute is unknown. |
| Schemas.DefaultFilters | app/schemas/schemas.py:90-112 | The default request sets no damage filter, no "new" filter and no price bound, sorts by ascending price, and asks for at most 5 results. |
| Schemas.ToSummary | app/schemas/schemas.py:53-62 | The summary shows "Price on request" exactly when the price is unknown or not positive, and otherwise the positive amount. It shows mileage "N/A" exactly when the mileage is unknown or 0. The identifier is kept. |
| Schemas.FixedLines | app/schemas/schemas.py:66-78 | The twelve lines of the detailed view that are always produced are never empty. |
| Schemas.ToDetail | app/schemas/schemas.py:64-83 | The detailed view holds at most fifteen lines, and none of them is empty. |
| Schemas.DetailShape | app/schemas/schemas.py:64-83 | The detailed view is the twelve fixed lines, followed by the Beds, Suspension and Total weight lines. Each of those three appears exactly when its attribute is known and truthy (not 0, not empty text), because empty lines are dropped before the join. |
| Schemas.DetailFlagLines | app/schemas/schemas.py:76-78 | The New, Retarder and Air conditioning lines read "Yes" exactly when the flag is known to be true. They read "No" both for false and for unknown. |
| Schemas.DropBlankAppend | app/schemas/schemas.py:83 | Dropping the empty lines from two joined lists is the same as dropping them from each list and joining the results. |
| DataLoader.ParseBoolAsWritten | app/services/data_loader.py:37-43 | The flag parser as written: unknown exactly for a null cell or the empty text, and a real bool unchanged. Any other cell is read through its stripped, lower-cased text. |
| DataLoader.ParseBool | app/services/data_loader.py:37-43 | The corrected flag parser: it agrees with the parser as written except that a whole float is true exactly when it equals 1. |
| DataLoader.ParseBoolAsWrittenFloatOne | app/services/data_loader.py:37-43 | The flag parser as written reads the integer 1 as true, but the same 1 read as the float 1.0 as false (see Findings). |
| DataLoader.ParseBoolAsWrittenMeaning | app/services/data_loader.py:37-43 | The flag parser as written reads every whole float as false. It differs from the corrected parser on exactly one cell, the float 1.0. |
| DataLoader.WholeFloatRead | app/services/data_loader.py:37-43 | Every whole float is read as false: its text (the digits followed by ".0" below 10^16) is never "true", "1" or "yes". |
| DataLoader.ParseBoolMeaning | app/services/data_loader.py:37-43 | The corrected flag parser gives unknown exactly for a null cell or the empty text. A real bool is returned unchanged. A number is true exactly when it equals 1. Any other text is true exactly when its stripped, lower-cased form is "true", "1" or "yes". |
| DataLoader.IntTextIsPlain | app/services/data_loader.py:42 | The text of an integer has no surrounding space and no letters, so stripping and lower-casing leave it unchanged. |
| DataLoader.NormalizeUpper | app/services/data_loader.py:100-122 | The brand, cabin, configuration and model columns are unknown after normalisation exactly when the cell was null. |
| DataLoader.NormalizeLower | app/services/data_loader.py:94-98 | The fuel column is unknown after normalisation exactly when the cell was null. |
| DataLoader.NormalizeTextIdempotent | app/services/data_loader.py:94-122 | Normalised text is the cell's stripped text, in upper case (brand, cabin, configuration, model) or lower case (fuel). It is equal to the stripped text ignoring case, and has no letter of the other case. Normalising it a second time changes nothing. |
| DataLoader.NormalizeGearbox | app/services/data_loader.py:88-92 | A gearbox cell is unknown after normalisation exactly when it was null. |
| DataLoader.NormalizeGearboxIdempotent | app/services/data_loader.py:24-28 | A normalised gearbox is lower-case. A Dutch label, compared after stripping and upper-casing, always becomes its English name. Any other cell becomes its stripped text in lower case. Normalising a normalised gearbox again changes nothing. |
| DataLoader.GearboxName | app/services/data_loader.py:91 | A stripped gearbox text whose upper-case form is a Dutch label becomes one of the English names. Any other text becomes a lower-case text equal to it ignoring case. |
| DataLoader.GearboxNameStable | app/services/data_loader.py:91 | The gearbox name of stripped text is stripped lower-case text that maps to itself. |
| DataLoader.EnglishGearboxName | app/services/data_loader.py:24-28 | The three English names are stripped lower-case text, and none of them is itself a Dutch label. |
| DataLoader.GearboxNamePadded | app/services/data_loader.py:91 | A gearbox cell with one space on each side is normalised like the bare text. |
| DataLoader.GearboxMixedCase | app/services/data_loader.py:91 | The Dutch label for an automatic gearbox, written in mixed case, becomes "automatic". |
| DataLoader.GearboxExample | app/services/data_loader.py:88-92 | The raw cell " Automaat " becomes "automatic". |
| DataLoader.NormalizeRow | app/services/data_loader.py:88-128 | Normalising a row keeps its identifier, price, power and mileage. |
| DataLoader.NormalizeRowMeaning | app/services/data_loader.py:88-128 | A normalised row keeps its identifier, price, power, mileage, beds and euro norm. Each text column is unknown exactly when its cell was null. Otherwise it is the cell's stripped text, upper-case or lower-case as its column demands. A gearbox is the English name of a Dutch label, or else the stripped text in lower case. The damage and new flags are unknown exactly when their cell was null or empty. |
| DataLoader.NormalizeRowsAt | app/services/data_loader.py:88-128 | Ingestion normalises every row in place: row i of the table is the normalisation of row i of the file. |
| DataLoader.Deduped | app/services/data_loader.py:76-86 | Renaming keeps the number of columns. |
| DataLoader.SeenStep | app/services/data_loader.py:79-85 | The `seen` dictionary holds exactly the names met so far with their number of repeats: a name is a repeat exactly when it is in `seen`, and updating `seen` keeps the count right. |
| DataLoader.DedupColumns | app/services/data_loader.py:76-86 | The renaming loop with its `seen` dictionary gives exactly the specified names: the first occurrence of a name is kept, and its k-th repeat becomes `name_k`. |
| DataLoader.DedupDistinct | app/services/data_loader.py:76-86 | Column names that are already distinct are left unchanged. |
| DataLoader.DedupUnique | app/services/data_loader.py:76-86 | When no column name already ends in an underscore followed by decimal digits, the renamed names are pairwise different. |
| DataLoader.DedupCanCollide | app/services/data_loader.py:76-86 | With a column already named like a renamed repeat, the renaming can still produce the same name twice: `a, a, a_1` becomes `a, a_1, a_1`. |
| DataLoader.SplitAtLastUnderscore | app/services/data_loader.py:81 | A renamed name `c_k`, where the text of `k` has no underscore, determines both `c` and the text of `k`. |
| DataLoader.TrailingRunAfter | app/services/data_loader.py:81 | In `c_k`, where the text of `k` has no underscore, the part after the last underscore is exactly `k`. |
| DataLoader.RenamedHasCountSuffix | app/services/data_loader.py:81 | Every renamed repeat ends in an underscore followed by decimal digits. |
| DataLoader.Ingest | app/services/data_loader.py:64-131 | The loaded table has as many rows and as many columns as the file. |
| DataLoader.InventoryStore.constructor | app/services/data_loader.py:34 | The store starts with nothing loaded. |
| DataLoader.InventoryStore.LoadInventory | app/services/data_loader.py:64-131 | Loading builds the table from the file's contents (renamed columns, normalised rows) and keeps it as the cached table. |
| DataLoader.InventoryStore.GetDataframe | app/services/data_loader.py:134-139 | The store stays valid: a cached table is always the file's normalised table. The returned table is that table: the cached one, or the file's when nothing was loaded. Afterwards the table is cached. A table that was already cached is left unchanged. |
| DataLoader.GetDataframeTwice | app/services/data_loader.py:134-139 | Two calls in a row return the same table, and it stays cached. |
| DataLoader.FirstIndex | app/services/data_loader.py:145-148 | The position found holds the identifier, and no earlier row holds it. The result is -1 exactly when no row holds the identifier. |
| DataLoader.FindById | app/services/data_loader.py:142-149 | The lookup gives nothing exactly when no row holds the identifier. Otherwise it gives the first row that holds it. |
| DataLoader.InventoryStore.GetVehicleById | app/services/data_loader.py:142-149 | The lookup runs on the cached table (loading it first when needed) and answers as `FindById` does. |
| DataLoader.InventoryStore.GetAllVehicles | app/services/data_loader.py:152-155 | Every row of the cached table is returned, in table order. |
| DataLoader.TextLessTransitive | app/services/data_loader.py:163 | Python's order on text is transitive. |
| DataLoader.TextLessTotal | app/services/data_loader.py:163 | Python's order on text is total on different texts. |
| DataLoader.InsertDistinct | app/services/data_loader.py:163 | Inserting into an increasing list without duplicates keeps it so, and adds exactly the inserted value. |
| DataLoader.SortedDistinct | app/services/data_loader.py:163 | The result is strictly increasing and holds exactly the values of its input. |
| DataLoader.ColumnValues | app/services/data_loader.py:163 | The list holds exactly the values of the column's non-null cells. |
| DataLoader.UniqueValues | app/services/data_loader.py:158-163 | An unknown column gives the empty list. Otherwise the result is strictly increasing, free of duplicates, and holds exactly the non-null values of the column. |
| DataLoader.InventoryStore.GetUniqueValues | app/services/data_loader.py:158-163 | The distinct values are computed on the cached table, loading it first when needed. |
| SearchInventory.Matches | app/tools/search_inventory.py:30-114 | The whole filter mask: a vehicle passes when every rule of the filter accepts it. The retarder and air-conditioning filters take no part. It carries no contract of its own; its rules are stated by `SearchInventory.TextFiltersMeaning`, `SearchInventory.NumericFiltersMeaning`, `SearchInventory.DamageRule` and `SearchInventory.PriceBoundsResults`. |
| SearchInventory.Select | app/tools/search_inventory.py:30-116 | Every selected row passes every rule, and the selection draws only on the table's rows. |
| SearchInventory.SelectCount | app/tools/search_inventory.py:116 | A row that passes is selected as often as it occurs in the table. A row that fails is never selected. |
| SearchInventory.SelectAll | app/tools/search_inventory.py:30-116 | When every row passes the rules, the selection is the whole table, in table order. |
| SearchInventory.DamageRule | app/tools/search_inventory.py:33-34 | Unless damaged vehicles are asked for, no result is known to be damaged, and a vehicle of unknown damage is judged on the other rules alone. When damaged vehicles are asked for, the damage flag plays no part. |
| SearchInventory.DamageFalseIsDefault | app/tools/search_inventory.py:33-34 | Asking to exclude damaged vehicles gives the same answer as not asking. |
| SearchInventory.PriceBoundsResults | app/tools/search_inventory.py:37-84 | When a price bound is set, every result has a known positive price inside the inclusive bounds, and its summary never says "Price on request". |
| SearchInventory.TextFiltersMeaning | app/tools/search_inventory.py:40-78 | A set text filter never passes a vehicle whose attribute is unknown. Brand and configuration must be equal ignoring case. Gearbox and fuel must be equal in lower case. The model must contain the filter text ignoring case. The cabin must be known and non-empty. When the filter text is "sleeper" in any case, the upper-cased cabin must contain one of the sleeper words. Otherwise the upper-cased cabin must contain the upper-cased filter text. The euro norm must be equal. |
| SearchInventory.SleeperExamples | app/tools/search_inventory.py:66-78 | A cabin filter "Sleeper" passes a cabin named with a sleeper word ("GLOBETROTTER XL") and rejects a day cab. |
| SearchInventory.DayCabIsNotSleeper | app/tools/search_inventory.py:70-73 | None of the thirteen sleeper words occurs in "DAY CAB". |
| SearchInventory.NumericFiltersMeaning | app/tools/search_inventory.py:86-114 | Power, mileage and bed bounds are inclusive, and an unknown value fails any bound. "New" keeps only vehicles known to be new. "Not new" keeps vehicles known not to be new and vehicles of unknown state. |
| SearchInventory.UnknownRecordMatches | app/tools/search_inventory.py:28-114 | A record of which only the identifier is known passes a filter exactly when the filter sets no text, no euro norm, no bound and does not ask for new vehicles. So an unknown value fails every rule, except the damage default and a "not new" filter, which keep it. |
| SearchInventory.MatchesIgnores | app/tools/search_inventory.py:105-111 | The rules do not read the sort order, the limit, the retarder filter or the air-conditioning filter. A damage filter of "false" acts like none. |
| SearchInventory.RetarderAircoIgnored | app/tools/search_inventory.py:105-111 | The retarder and air-conditioning filters never change the answer. |
| SearchInventory.OrderOf | app/tools/search_inventory.py:119-126 | The sort is by descending price, ascending mileage or descending power exactly when the request names that order. Any other request, or none, sorts by ascending price. |
| SearchInventory.SortKey | app/tools/search_inventory.py:119-137 | The ranking value is the price, the mileage or the power, as the order demands. For ascending price, the value is unknown exactly when the price is unknown or 0. |
| SearchInventory.RanksBeforeOrder | app/tools/search_inventory.py:118-137 | "Ranks before" is never both ways, and "does not rank before" chains, so the ranking is a strict weak order. |
| SearchInventory.Insert | app/tools/search_inventory.py:131-137 | Inserting into a ranked list keeps it ranked and adds exactly the inserted vehicle. |
| SearchInventory.SortBy | app/tools/search_inventory.py:118-137 | The sorted list is ranked in the chosen order and is a permutation of its input. |
| SearchInventory.UnknownKeysLast | app/tools/search_inventory.py:126-137 | In a ranked list, every vehicle after one with an unknown key also has an unknown key. For ascending price, a price of 0 counts as unknown, so every such later vehicle has an unknown price or a price of 0. |
| SearchInventory.Head | app/tools/search_inventory.py:139 | `head(n)` is a prefix of its input. It has `min(n, length)` elements for a non-negative `n`, and drops the last `-n` elements for a negative `n`. |
| SearchInventory.Ranked | app/tools/search_inventory.py:116-137 | The matching rows in ranked order: a permutation of the selection in which every row passes the rules. |
| SearchInventory.ApplyFilters | app/tools/search_inventory.py:28-139 | Every result passes every rule and is drawn from the table. The results are ranked in the chosen order. For a non-negative limit, there are `min(limit, number of matches)` results. |
| SearchInventory.LimitAfterSort | app/tools/search_inventory.py:116-139 | The limit is applied after sorting: a matching vehicle that was cut off ranks no better than any vehicle returned. |
| SearchInventory.LimitIsPrefix | app/tools/search_inventory.py:139 | Raising the limit only appends results: the smaller answer is a prefix of the larger one. |
| SearchInventory.DefaultFiltersMeaning | app/schemas/schemas.py:90-112 | The default filter keeps every vehicle not known to be damaged, ranks by ascending price, and returns at most five vehicles. |
| SearchInventory.DefaultMatches | app/schemas/schemas.py:90-112 | Whatever its limit, the default filter leaves out only vehicles known to be damaged. |
| SearchInventory.CutOffRanksLast | app/tools/search_inventory.py:139 | In a ranked list, an element left out of the first `n` ranks no better than any of the first `n`. |
| SearchInventory.CheapestFirst | app/tools/search_inventory.py:126-139 | With ascending price, if a matching vehicle with a non-zero price was cut off by the limit, every returned vehicle has a known, non-zero price no higher than it. |
| SearchInventory.ZeroPriceLast | app/tools/search_inventory.py:126-131 | With ascending price, no vehicle priced 0 or unknown comes before a vehicle with another price in the answer. |
| SearchInventory.FieldCell | app/tools/search_inventory.py:256-271 | The price cell is an amount or "On request". The New, Retarder and Air conditioning cells are always "Yes" or "No". |
| SearchInventory.FieldCellMeaning | app/tools/search_inventory.py:256-271 | A comparison cell shows "On request" exactly for an unknown or non-positive price. It shows "N/A" exactly for an unknown or zero power, mileage, euro norm or bed count. For the configuration it shows "N/A" exactly when the value is unknown, empty, or the stored text "N/A". It shows "Yes" only for a flag known to be true. |
| SearchInventory.FieldRowOf | app/tools/search_inventory.py:273-276 | Each table row carries its caption and one cell per vehicle, in the order the vehicles were given. |
| SearchInventory.ComparisonTable | app/tools/search_inventory.py:252-278 | The comparison text is a title, a 60-character rule, and then the fourteen field rows in order. |
| SearchInventory.BuildComparisonText | app/tools/search_inventory.py:252-278 | The appending loop builds exactly the specified comparison table. |
| SearchInventory.Missing | app/tools/search_inventory.py:231-238 | No more identifiers are reported missing than were given. |
| SearchInventory.MissingMeaning | app/tools/search_inventory.py:231-241 | An identifier is reported missing exactly when it was asked for and no row holds it. |
| SearchInventory.Found | app/tools/search_inventory.py:231-238 | Every identifier given adds either one found vehicle or one missing identifier. |
| SearchInventory.FoundMeaning | app/tools/search_inventory.py:231-238 | When no identifier is missing, the i-th vehicle found is the one the i-th identifier names. |
| SearchInventory.MissingAppend | app/tools/search_inventory.py:232-238 | One more identifier is appended to the missing ones exactly when no row holds it. |
| SearchInventory.FoundAppend | app/tools/search_inventory.py:232-238 | One more identifier appends its vehicle to the found ones exactly when a row holds it. |
| SearchInventory.Comparison | app/tools/search_inventory.py:226-249 | Fewer than 2 identifiers and more than 5 identifiers each give their own error. If any identifier is missing, the answer lists all missing identifiers and no vehicle data. Otherwise the count equals the number of identifiers, the vehicles follow the order of the identifiers, and the table is built from them. Between 2 and 5 identifiers, a comparison is made exactly when all are found. |
| SearchInventory.CompareKeepsDuplicates | app/tools/search_inventory.py:231-249 | An identifier given twice is compared twice. |
| SearchInventory.CompareReportsAllMissing | app/tools/search_inventory.py:240-241 | When any identifier is unknown, the answer is the not-found error listing every missing identifier in the order given. |
| SearchInventory.ResolveIds | app/tools/search_inventory.py:231-238 | The lookup loop collects exactly the found vehicles and the missing identifiers, and leaves the table cached. |
| SearchInventory.CompareVehicles | app/tools/search_inventory.py:214-249 | The comparison on the store answers as `Comparison` does on the cached table. A bad number of identifiers is rejected before anything is loaded. |
| SearchInventory.SearchInventoryDirect | app/tools/search_inventory.py:281-285 | The search runs on the cached table, loading it first when needed, and answers as `ApplyFilters` does. |
| SearchInventory.GetVehicleDetails | app/tools/search_inventory.py:197-211 | An unknown identifier gives a not-found answer naming it, not a failure. Otherwise the answer is the first row of the table with that identifier, as the lookup by identifier returns it. |

## Left out

- Reading the inventory file is not modelled. The store is given the file's header and rows as values. The error for a missing file is not modelled either.
- Numeric parsing of cells (`_parse_int`, `_parse_float`, the truncation in `int(float(…))`) is not modelled. Numeric columns arrive as integers, and prices are whole euros, while the source keeps prices and price bounds as floats.
- `_row_to_tractor_head` is not modelled. The table's rows are already typed records, so the conversion back from a table row is the identity.
- The table carries only the record's columns. An extra column of the file, such as a repeated header the file reader has renamed to `cabin.1`, is in the column list, but `DataLoader.UniqueValues` gives no values for it. The flag column `has_crane_hook` is not part of the record.
- The source normalises a column only when the file has it. The model assumes every record column is present.
- The file reader already renames repeated header names itself. The renaming loop is modelled as written, on whatever names it receives.
- Number formatting (thousands separators, `€` and unit text), text padding in the comparison table and the final joins with newlines are not modelled. A rendered value is a `Cell`: text, an amount with its unit, or Python's "None".
- The model and non-sleeper cabin filters are literal substring tests. The source passes the filter text to a regular-expression search, so text holding regular-expression characters would behave differently there.
- Upper and lower case are mapped for ASCII letters only.
- The sort is a stable insertion sort. The source's sort does not promise the order of rows with equal keys, so no lemma claims an order among them.
- A negative `limit` is modelled exactly as `head` treats it (the last rows are dropped). The schema does not forbid it.
- The limit default is the schema's 5. A docstring of the search tool says 10.
- The JSON decoding and validation of the filter payload, the JSON encoding of the answers, logging, and the `search_inventory` tool wrapper are not modelled.
- `get_unique_values` of a column that mixes kinds of values would fail in Python. In the model a column never mixes kinds.
- DataLoader.NormalizeUpper: states only when the result is unknown. That it is the cell's stripped text in upper case is stated by `DataLoader.NormalizeTextIdempotent`.
- DataLoader.NormalizeLower: states only when the result is unknown. That it is the cell's stripped text in lower case is stated by `DataLoader.NormalizeTextIdempotent`.
- DataLoader.NormalizeGearbox: states only when the result is unknown. The translation of a Dutch label and the lower-cased text of any other cell are stated by `DataLoader.NormalizeGearboxIdempotent`.
- DataLoader.Deduped: states only the length. The names themselves are stated by `DataLoader.DedupColumns`, `DataLoader.DedupDistinct` and `DataLoader.DedupUnique`.
- SearchInventory.Missing: states only a bound on the length. Which identifiers it holds is stated by `SearchInventory.MissingMeaning`.
- SearchInventory.Found: states only the length. Which vehicles it holds is stated by `SearchInventory.FoundMeaning`.
- DataLoader.NormalizeRow: parses the six flag columns with the corrected `DataLoader.ParseBool`, not with the parser as written (see Findings). The two differ only on a flag cell holding the float 1.0, as `DataLoader.ParseBoolAsWrittenMeaning` proves. There the program stores false, and the model stores true. So on such a file a vehicle flagged damaged with 1.0 is dropped by the default search in the model but kept by the program.
- DataLoader.InventoryStore.LoadInventory: the rows it stores are built by `DataLoader.NormalizeRow`. So a flag cell holding the float 1.0 loads as true, where the program loads false. Every other cell loads as in the program.
- Python writes a float of magnitude 10^16 or more in exponent form, such as "1e+16". The model writes every whole float as its digits followed by ".0". Neither text is a true word, so the flag parser reads both as false.
- DataLoader.Ingest: states only the sizes. The rows are related by `DataLoader.NormalizeRowsAt` and the columns by `DataLoader.DedupColumns`.

## Findings

| source | as written | input that shows it | evidently intended | confidence | as-written member | corrected member |
|---|---|---|---|---|---|---|
| app/services/data_loader.py:37-43 | A value that is not a bool is read through its text, so a float flag 1.0 becomes "1.0", which is not in the true words. The reader makes a 0/1 flag column float as soon as one of its cells is blank. | A flag column holding 1 and a blank cell: the 1 arrives as 1.0 and is parsed as false, while the same 1 in a column without blanks is parsed as true. | A numeric 1 is true whatever its storage type. | not executed | DataLoader.ParseBoolAsWrittenFloatOne | DataLoader.ParseBoolMeaning |

=== FILE: data_loader.dfy ===
/** Ingestion of the inventory file into the in-memory table (`load_inventory`),
    the lazily loaded table itself (`get_dataframe`), and the lookups made on it
    (`get_vehicle_by_id`, `get_unique_values`). Reading the file is not
    modelled: the store is handed the file's header and rows as values. */
module DataLoader {
  import opened Wrappers
  import opened Strings
  import opened Schemas

  /** A cell as the file reader hands it over, before normalisation. A float
      holding a whole number (the reader makes a column of 1s and 0s float as
      soon as one cell is blank) is `WholeFloat`. */
  datatype RawValue = Null | Boolean(b: bool) | Integer(i: int) | WholeFloat(w: int) | Chars(s: string)

  /** Python's `str()` of a cell that is not null. A whole float is written
      as its digits followed by ".0", as Python does below 10^16. */
  function PyStr(v: RawValue): string {
    match v
    case Null => "nan"
    case Boolean(b) => if b then "True" else "False"
    case Integer(i) => IntToString(i)
    case WholeFloat(w) => IntToString(w) + ".0"
    case Chars(s) => s
  }

  /** `GEARBOX_MAP`: the Dutch gearbox labels and their English names. */
  const GearboxMap: map<string, string> :=
    map["AUTOMAAT" := "automatic", "HANDGESCHAKELD" := "manual", "HALFAUTOMAAT" := "semi-automatic"]

  /** The texts `_parse_bool` reads as true. */
  const TrueWords: set<string> := {"true", "1", "yes"}

  // ---------------------------------------------------------------------------
  // Boolean parsing
  // ---------------------------------------------------------------------------

  /** `_parse_bool` as written: null or the empty text is unknown, a real bool
      is kept, anything else is true exactly when its stripped, lower-cased
      `str()` is "true", "1" or "yes". */
  function ParseBoolAsWritten(v: RawValue): (r: Option<bool>)
    ensures r.None? <==> v.Null? || v == Chars("")
    ensures v.Boolean? ==> r == Some(v.b)
  {
    if v.Null? || v == Chars("") then None
    else if v.Boolean? then Some(v.b)
    else Some(Lower(Strip(PyStr(v))) in TrueWords)
  }

  /** The flag 1 stored as the float 1.0 reads as false, while the same 1
      stored as an integer reads as true. */
  lemma ParseBoolAsWrittenFloatOne()
    ensures ParseBoolAsWritten(Integer(1)) == Some(true)
    ensures ParseBoolAsWritten(WholeFloat(1)) == Some(false)
  {
    IntOneRead();
    FloatOneRead();
  }

  /** The integer 1 is read as true. */
  lemma IntOneRead()
    ensures ParseBoolAsWritten(Integer(1)) == Some(true)
  {
    IntOneText();
  }

  /** The float 1.0 is read as false. */
  lemma FloatOneRead()
    ensures ParseBoolAsWritten(WholeFloat(1)) == Some(false)
  {
    FloatOneText();
  }

  lemma OneIsText()
    ensures IntToString(1) == "1"
  {
    assert NatToString(1) == [DigitChar(1)];
  }

  /** The integer 1 reads as the text "1", a true word. */
  lemma IntOneText()
    ensures Lower(Strip(PyStr(Integer(1)))) in TrueWords
  {
    IntTextIsPlain(1);
    OneIsText();
  }

  /** The float 1.0 reads as the text "1.0", which is not a true word. */
  lemma FloatOneText()
    ensures Lower(Strip(PyStr(WholeFloat(1)))) !in TrueWords
  {
    OneIsText();
    assert PyStr(WholeFloat(1)) == "1.0";
    OneDotZeroPlain();
    assert "1.0"[1] == '.';
  }

  lemma OneDotZeroPlain()
    ensures Lower(Strip("1.0")) == "1.0"
  {
    StripTrimmed("1.0");
    CaseOfDigits("1.0");
  }

  /** `_parse_bool` with the intended reading of numbers: a whole float is read
      by its value, like an integer, so 1.0 is true. */
  function ParseBool(v: RawValue): (r: Option<bool>)
    ensures r.None? <==> v.Null? || v == Chars("")
    ensures v.Boolean? ==> r == Some(v.b)
    ensures v.WholeFloat? ==> r == Some(v.w == 1)
  {
    if v.WholeFloat? then Some(v.w == 1) else ParseBoolAsWritten(v)
  }

  /** The parser as written reads every whole float as false, and it differs
      from the corrected one on exactly one cell: the float 1.0. */
  lemma ParseBoolAsWrittenMeaning(v: RawValue)
    ensures v.WholeFloat? ==> ParseBoolAsWritten(v) == Some(false)
    ensures ParseBoolAsWritten(v) != ParseBool(v) <==> v == WholeFloat(1)
  {
    if v.WholeFloat? {
      WholeFloatRead(v.w);
    }
  }

  /** Every whole float is read as false. */
  lemma WholeFloatRead(w: int)
    ensures ParseBoolAsWritten(WholeFloat(w)) == Some(false)
  {
    var s := PyStr(WholeFloat(w));
    WholeFloatPlain(w);
    assert Lower(Strip(s)) == s;
    NotTrueWord(s);
  }

  /** The text of a whole float, the digits of `w` followed by ".0" (Python's
      own text below 10^16), is already stripped and has no letters. */
  lemma WholeFloatPlain(w: int)
    ensures Lower(Strip(PyStr(WholeFloat(w)))) == PyStr(WholeFloat(w))
    ensures |PyStr(WholeFloat(w))| >= 3 && PyStr(WholeFloat(w))[|PyStr(WholeFloat(w))| - 1] == '0'
  {
    WholeFloatChars(w);
    NumberTextPlain(PyStr(WholeFloat(w)));
  }

  /** The characters of `str(w + 0.0)`: a sign, digits and a point, ending in 0. */
  lemma WholeFloatChars(w: int)
    ensures var s := PyStr(WholeFloat(w));
            && |s| >= 3 && s[|s| - 1] == '0'
            && forall k :: 0 <= k < |s| ==> s[k] == '-' || s[k] == '.' || '0' <= s[k] <= '9'
  {
    var t := IntToString(w);
    var s := t + ".0";
    assert PyStr(WholeFloat(w)) == s;
    forall k | 0 <= k < |s|
      ensures s[k] == '-' || s[k] == '.' || '0' <= s[k] <= '9'
    {
      if k < |t| {
        assert s[k] == t[k];
      }
    }
  }

  /** Text made of signs, points and digits is stripped and has no letters. */
  lemma NumberTextPlain(s: string)
    requires s != []
    requires forall k :: 0 <= k < |s| ==> s[k] == '-' || s[k] == '.' || '0' <= s[k] <= '9'
    ensures Lower(Strip(s)) == s
  {
    assert !IsSpace(s[0]) && !IsSpace(s[|s| - 1]);
    StripTrimmed(s);
    CaseOfDigits(s);
  }

  /** A text of three or more characters ending in a digit is no true word. */
  lemma NotTrueWord(s: string)
    requires |s| >= 3 && s[|s| - 1] == '0'
    ensures s !in TrueWords
  {
    assert s != "true" by { assert "true"[3] == 'e'; }
    assert s != "yes" by { assert "yes"[2] == 's'; }
  }

  /** The decimal text of an integer is already stripped and has no letters. */
  lemma IntTextIsPlain(i: int)
    ensures Lower(Strip(IntToString(i))) == IntToString(i)
  {
    var t := IntToString(i);
    StripTrimmed(t);
    CaseOfDigits(t);
  }

  /** What `ParseBool` gives for every kind of cell: unknown exactly for null
      and the empty text, the value itself for a bool, "equals 1" for a
      number, and the word test for text. */
  lemma ParseBoolMeaning(v: RawValue)
    ensures ParseBool(v).None? <==> v.Null? || v == Chars("")
    ensures v.Boolean? ==> ParseBool(v) == Some(v.b)
    ensures v.Integer? ==> ParseBool(v) == Some(v.i == 1)
    ensures v.WholeFloat? ==> ParseBool(v) == Some(v.w == 1)
    ensures v.Chars? && v.s != "" ==> ParseBool(v) == Some(Lower(Strip(v.s)) in TrueWords)
  {
    if v.Integer? {
      var t := IntToString(v.i);
      IntTextIsPlain(v.i);
      IntToStringIsOne(v.i);
      assert t in TrueWords <==> t == "1" by {
        assert t != "true" by { assert t[0] != 't'; }
        assert t != "yes" by { assert t[0] != 'y'; }
      }
    }
  }

  // ---------------------------------------------------------------------------
  // Per-column normalisation
  // ---------------------------------------------------------------------------

  /** The `brand`, `cabin`, `configuration` and `model` columns: stripped and
      upper-cased text, unknown stays unknown. */
  function NormalizeUpper(v: RawValue): (r: Option<string>)
    ensures r.None? <==> v.Null?
  {
    if v.Null? then None else Some(Upper(Strip(PyStr(v))))
  }

  /** The `fuel` column: stripped and lower-cased text, unknown stays unknown. */
  function NormalizeLower(v: RawValue): (r: Option<string>)
    ensures r.None? <==> v.Null?
  {
    if v.Null? then None else Some(Lower(Strip(PyStr(v))))
  }

  /** The English name of a stripped gearbox text: the translation of a
      Dutch label (compared upper-cased), otherwise the lower-cased text. */
  function GearboxName(t: string): (g: string)
    ensures Upper(t) in GearboxMap ==> g in GearboxMap.Values
    ensures Upper(t) !in GearboxMap ==> IsLower(g) && Lower(g) == Lower(t)
  {
    if Upper(t) in GearboxMap then GearboxMap[Upper(t)] else Lower(t)
  }

  /** The `gearbox` column: stripped, then translated or lower-cased. */
  function NormalizeGearbox(v: RawValue): (r: Option<string>)
    ensures r.None? <==> v.Null?
  {
    if v.Null? then None else Some(GearboxName(Strip(PyStr(v))))
  }

  /** Normalised text is upper-case (or lower-case) and stripped, and
      normalising it again changes nothing. */
  lemma NormalizeTextIdempotent(v: RawValue)
    requires !v.Null?
    ensures IsUpper(NormalizeUpper(v).value) && IsLower(NormalizeLower(v).value)
    ensures Lower(NormalizeUpper(v).value) == Lower(Strip(PyStr(v)))
    ensures Upper(NormalizeLower(v).value) == Upper(Strip(PyStr(v)))
    ensures NormalizeUpper(Chars(NormalizeUpper(v).value)) == NormalizeUpper(v)
    ensures NormalizeLower(Chars(NormalizeLower(v).value)) == NormalizeLower(v)
  {
    var t := Strip(PyStr(v));
    UpperKeepsTrimmed(t);
    UpperOfLower(t);
  }

  /** The English gearbox names are stripped lower-case text that is not
      itself a Dutch label. */
  lemma EnglishGearboxName(key: string)
    requires key in GearboxMap
    ensures var g := GearboxMap[key];
            IsLower(g) && Strip(g) == g && Lower(g) == g && Upper(g) !in GearboxMap
  {
    var g := GearboxMap[key];
    assert |g| in {6, 9, 14} && g[0] in {'a', 'm', 's'} && g[|g| - 1] in {'c', 'l'} && IsLower(g);
    PlainName(g);
  }

  /** Lower-case text with a letter at each end, and neither the length of
      a Dutch label nor (at length 14) its initial, is stripped, its own
      lower-case form, and not a Dutch label once upper-cased. */
  lemma PlainName(g: string)
    requires g != [] && 'a' <= g[0] <= 'z' && 'a' <= g[|g| - 1] <= 'z' && IsLower(g)
    requires |g| != 8 && |g| != 12 && (|g| == 14 ==> g[0] != 'h')
    ensures Strip(g) == g && Lower(g) == g && Upper(g) !in GearboxMap
  {
    StripTrimmed(g);
    assert Lower(g) == g;
    NotDutchLabel(g);
  }

  /** Lower-case text of neither length 8 nor 12, and not starting with `h`
      at length 14, is no Dutch label once upper-cased. */
  lemma NotDutchLabel(g: string)
    requires g != [] && IsLower(g)
    requires |g| != 8 && |g| != 12 && (|g| == 14 ==> g[0] != 'h')
    ensures Upper(g) !in GearboxMap
  {
    var u := Upper(g);
    assert GearboxMap.Keys == {"AUTOMAAT", "HANDGESCHAKELD", "HALFAUTOMAAT"};
    assert u != "AUTOMAAT" && u != "HALFAUTOMAAT";
    assert u != "HANDGESCHAKELD" by {
      if |g| == 14 {
        assert u[0] == UpperChar(g[0]) != 'H';
      }
    }
  }

  /** A normalised gearbox is lower-case; a Dutch label always becomes its
      English name; and normalising a normalised gearbox again changes
      nothing. */
  lemma NormalizeGearboxIdempotent(v: RawValue)
    requires !v.Null?
    ensures IsLower(NormalizeGearbox(v).value)
    ensures var key := Upper(Strip(PyStr(v)));
            key in GearboxMap ==> NormalizeGearbox(v) == Some(GearboxMap[key])
    ensures var key := Upper(Strip(PyStr(v)));
            key !in GearboxMap ==> NormalizeGearbox(v) == Some(Lower(Strip(PyStr(v))))
    ensures NormalizeGearbox(Chars(NormalizeGearbox(v).value)) == NormalizeGearbox(v)
  {
    GearboxNameStable(Strip(PyStr(v)));
  }

  /** The English name of stripped text is stripped lower-case text that is
      its own English name. */
  lemma GearboxNameStable(t: string)
    requires t == [] || (!IsSpace(t[0]) && !IsSpace(t[|t| - 1]))
    ensures var g := GearboxName(t);
            IsLower(g) && Strip(g) == g && GearboxName(g) == g
  {
    if Upper(t) in GearboxMap {
      EnglishGearboxName(Upper(t));
    } else {
      UpperKeepsTrimmed(t);
      UpperOfLower(t);
    }
  }

  lemma GearboxNamePadded(t: string)
    requires t != [] && !IsSpace(t[0]) && !IsSpace(t[|t| - 1])
    ensures NormalizeGearbox(Chars(" " + t + " ")) == Some(GearboxName(t))
  {
    StripPadded(t);
  }

  /** The Dutch label for an automatic gearbox, in mixed case, is translated. */
  lemma GearboxMixedCase()
    ensures GearboxName("Automaat") == "automatic"
  {
    assert Upper("Automaat") == "AUTOMAAT";
  }

  /** ... and so is the same label with spaces around it, as a raw cell. */
  lemma GearboxExample()
    ensures NormalizeGearbox(Chars(" Automaat ")) == Some("automatic")
  {
    assert " Automaat " == " " + "Automaat" + " ";
    GearboxNamePadded("Automaat");
    GearboxMixedCase();
  }

  /** A row of the inventory file. The columns that ingestion normalises hold
      raw cells; numeric columns hold the number the reader produced. */
  datatype RawRow = RawRow(
    vehicleId: int,
    euro: Option<int>,
    model: RawValue,
    modelExtended: Option<string>,
    brand: RawValue,
    configuration: RawValue,
    cabin: RawValue,
    length: Option<int>,
    width: Option<int>,
    height: Option<int>,
    power: Option<int>,
    mega: Option<int>,
    mileage: Option<int>,
    wheelbase: Option<int>,
    gearbox: RawValue,
    registeredAt: Option<string>,
    retarder: RawValue,
    internetPrice: Option<int>,
    isNew: RawValue,
    productionAt: Option<string>,
    fuel: RawValue,
    hasCrane: RawValue,
    bedAmount: Option<int>,
    tankAmount: Option<int>,
    hasHydraulics: RawValue,
    isDamaged: RawValue,
    suspension: Option<string>,
    driverSide: Option<string>,
    hasAirco: RawValue,
    totalWeight: Option<int>,
    netWeight: Option<int>)

  /** The per-column normalisation of `load_inventory`, applied to one row. */
  function NormalizeRow(r: RawRow): (v: TractorHead)
    ensures v.vehicleId == r.vehicleId && v.internetPrice == r.internetPrice
    ensures v.power == r.power && v.mileage == r.mileage
  {
    TractorHead(
      r.vehicleId, r.euro, NormalizeUpper(r.model), r.modelExtended, NormalizeUpper(r.brand),
      NormalizeUpper(r.configuration), NormalizeUpper(r.cabin), r.length, r.width, r.height,
      r.power, r.mega, r.mileage, r.wheelbase, NormalizeGearbox(r.gearbox), r.registeredAt,
      ParseBool(r.retarder), r.internetPrice, ParseBool(r.isNew), r.productionAt,
      NormalizeLower(r.fuel), ParseBool(r.hasCrane), r.bedAmount, r.tankAmount,
      ParseBool(r.hasHydraulics), ParseBool(r.isDamaged), r.suspension, r.driverSide,
      ParseBool(r.hasAirco), r.totalWeight, r.netWeight)
  }

  /** A normalised row keeps the identifier and the numbers; its text
      columns are unknown exactly when the cell was null, and are then
      upper-case (brand, model, cabin, configuration) or lower-case (fuel,
      gearbox); its flags are unknown exactly when the cell was null or empty. */
  lemma NormalizeRowMeaning(r: RawRow)
    ensures var v := NormalizeRow(r);
            && v.vehicleId == r.vehicleId && v.internetPrice == r.internetPrice
            && v.power == r.power && v.mileage == r.mileage && v.bedAmount == r.bedAmount && v.euro == r.euro
            && (v.brand.None? <==> r.brand.Null?) && (v.brand.Some? ==> IsUpper(v.brand.value))
            && (v.model.None? <==> r.model.Null?) && (v.model.Some? ==> IsUpper(v.model.value))
            && (v.cabin.None? <==> r.cabin.Null?) && (v.cabin.Some? ==> IsUpper(v.cabin.value))
            && (v.configuration.None? <==> r.configuration.Null?) && (v.configuration.Some? ==> IsUpper(v.configuration.value))
            && (v.fuel.None? <==> r.fuel.Null?) && (v.fuel.Some? ==> IsLower(v.fuel.value))
            && (v.gearbox.None? <==> r.gearbox.Null?) && (v.gearbox.Some? ==> IsLower(v.gearbox.value))
            && (v.brand.Some? ==> Lower(v.brand.value) == Lower(Strip(PyStr(r.brand))))
            && (v.model.Some? ==> Lower(v.model.value) == Lower(Strip(PyStr(r.model))))
            && (v.cabin.Some? ==> Lower(v.cabin.value) == Lower(Strip(PyStr(r.cabin))))
            && (v.configuration.Some? ==> Lower(v.configuration.value) == Lower(Strip(PyStr(r.configuration))))
            && (v.fuel.Some? ==> Upper(v.fuel.value) == Upper(Strip(PyStr(r.fuel))))
            && (v.gearbox.Some? && Upper(Strip(PyStr(r.gearbox))) in GearboxMap ==>
                  v.gearbox.value == GearboxMap[Upper(Strip(PyStr(r.gearbox)))])
            && (v.gearbox.Some? && Upper(Strip(PyStr(r.gearbox))) !in GearboxMap ==>
                  v.gearbox.value == Lower(Strip(PyStr(r.gearbox))))
            && (v.isDamaged.None? <==> r.isDamaged.Null? || r.isDamaged == Chars(""))
            && (v.isNew.None? <==> r.isNew.Null? || r.isNew == Chars(""))
  {
    UpperColumn(r.brand);
    UpperColumn(r.model);
    UpperColumn(r.cabin);
    UpperColumn(r.configuration);
    LowerColumn(r.fuel);
    GearboxColumn(r.gearbox);
    ParseBoolMeaning(r.isDamaged);
    ParseBoolMeaning(r.isNew);
  }

  /** An upper-cased column: unknown exactly for a null cell, else the
      cell's stripped text in upper case. */
  lemma UpperColumn(x: RawValue)
    ensures NormalizeUpper(x).None? <==> x.Null?
    ensures NormalizeUpper(x).Some? ==> IsUpper(NormalizeUpper(x).value)
    ensures NormalizeUpper(x).Some? ==> Lower(NormalizeUpper(x).value) == Lower(Strip(PyStr(x)))
  {
    if !x.Null? {
      NormalizeTextIdempotent(x);
    }
  }

  /** The fuel column: unknown exactly for a null cell, else the cell's
      stripped text in lower case. */
  lemma LowerColumn(x: RawValue)
    ensures NormalizeLower(x).None? <==> x.Null?
    ensures NormalizeLower(x).Some? ==> IsLower(NormalizeLower(x).value)
    ensures NormalizeLower(x).Some? ==> Upper(NormalizeLower(x).value) == Upper(Strip(PyStr(x)))
  {
    if !x.Null? {
      NormalizeTextIdempotent(x);
    }
  }

  /** The gearbox column: unknown exactly for a null cell, else the English
      name of a Dutch label or the cell's stripped text in lower case. */
  lemma GearboxColumn(x: RawValue)
    ensures NormalizeGearbox(x).None? <==> x.Null?
    ensures NormalizeGearbox(x).Some? ==> IsLower(NormalizeGearbox(x).value)
    ensures NormalizeGearbox(x).Some? && Upper(Strip(PyStr(x))) in GearboxMap ==>
              NormalizeGearbox(x).value == GearboxMap[Upper(Strip(PyStr(x)))]
    ensures NormalizeGearbox(x).Some? && Upper(Strip(PyStr(x))) !in GearboxMap ==>
              NormalizeGearbox(x).value == Lower(Strip(PyStr(x)))
  {
    if !x.Null? {
      NormalizeGearboxIdempotent(x);
    }
  }

  // ---------------------------------------------------------------------------
  // Duplicate column names
  // ---------------------------------------------------------------------------

  /** The name column `i` gets: unchanged at its first occurrence, and
      `c_k` at the k-th repeat of `c`. */
  function RenamedColumn(cols: seq<string>, i: nat): string
    requires i < |cols|
  {
    var k := multiset(cols[..i])[cols[i]];
    if k == 0 then cols[i] else cols[i] + "_" + NatToString(k)
  }

  function Deduped(cols: seq<string>): (r: seq<string>)
    ensures |r| == |cols|
  {
    seq(|cols|, i requires 0 <= i < |cols| => RenamedColumn(cols, i))
  }

  /** `seen` maps each name of `prefix` to its number of repeats there. */
  ghost predicate SeenCounts(seen: map<string, nat>, prefix: seq<string>) {
    forall c :: (c in seen <==> c in prefix) && (c in seen ==> seen[c] + 1 == multiset(prefix)[c])
  }

  /** Meeting name `c` after `prefix`: it is a repeat exactly when `seen`
      has it, and the updated map counts `prefix + [c]`. */
  lemma SeenStep(seen: map<string, nat>, prefix: seq<string>, c: string)
    requires SeenCounts(seen, prefix)
    ensures multiset(prefix)[c] == if c in seen then seen[c] + 1 else 0
    ensures SeenCounts(if c in seen then seen[c := seen[c] + 1] else seen[c := 0], prefix + [c])
  {
    assert multiset(prefix + [c]) == multiset(prefix) + multiset{c};
  }

  /** The renamed names of the first `i + 1` columns extend those of the
      first `i`. */
  lemma DedupedPrefix(cols: seq<string>, i: nat)
    requires i < |cols|
    ensures Deduped(cols)[..i + 1] == Deduped(cols)[..i] + [RenamedColumn(cols, i)]
  {
  }

  /** The renaming loop of `load_inventory`: `seen` maps each name met so far
      to its number of repeats. */
  method DedupColumns(cols: seq<string>) returns (newCols: seq<string>)
    ensures newCols == Deduped(cols)
  {
    var seen: map<string, nat> := map[];
    newCols := [];
    for i := 0 to |cols|
      invariant SeenCounts(seen, cols[..i])
      invariant newCols == Deduped(cols)[..i]
    {
      var c := cols[i];
      assert cols[..i + 1] == cols[..i] + [c];
      SeenStep(seen, cols[..i], c);
      DedupedPrefix(cols, i);
      if c in seen {
        seen := seen[c := seen[c] + 1];
        newCols := newCols + [c + "_" + NatToString(seen[c])];
      } else {
        seen := seen[c := 0];
        newCols := newCols + [c];
      }
    }
    assert cols[..|cols|] == cols;
  }

  /** Names that are already distinct are kept as they are. */
  lemma {:induction false} DedupDistinct(cols: seq<string>)
    requires forall i, j :: 0 <= i < j < |cols| ==> cols[i] != cols[j]
    ensures Deduped(cols) == cols
  {
    forall i | 0 <= i < |cols|
      ensures Deduped(cols)[i] == cols[i]
    {
      assert cols[i] !in cols[..i];
    }
  }

  /** The renamed names can still collide: a name that already looks like a
      renamed repeat is not taken into account. */
  lemma DedupCanCollide()
    ensures Deduped(["a", "a", "a_1"]) == ["a", "a_1", "a_1"]
  {
    var cols := ["a", "a", "a_1"];
    assert cols[..0] == [];
    assert RenamedColumn(cols, 0) == "a";
    assert cols[..1] == ["a"];
    assert NatToString(1) == "1";
    assert RenamedColumn(cols, 1) == "a_1";
    assert cols[..2] == ["a", "a"];
    assert "a_1" != "a";
    assert multiset(cols[..2])["a_1"] == 0;
    assert RenamedColumn(cols, 2) == "a_1";
  }

  /** The number of characters after the last underscore in `s` (all of
      them when there is none). */
  function TrailingRun(s: string): (k: nat)
    ensures k <= |s|
  {
    if s == [] || s[|s| - 1] == '_' then 0 else 1 + TrailingRun(s[..|s| - 1])
  }

  lemma {:induction false} TrailingRunAfter(a: string, x: string)
    requires '_' !in x
    ensures TrailingRun(a + "_" + x) == |x|
  {
    if x != [] {
      var x' := x[..|x| - 1];
      assert (a + "_" + x)[..|a + "_" + x| - 1] == a + "_" + x';
      assert x[|x| - 1] in x;
      TrailingRunAfter(a, x');
    }
  }

  /** Splitting "a_x" at its last underscore: when neither `x` nor `y` holds
      an underscore, "a_x" and "b_y" are equal only piece by piece. */
  lemma SplitAtLastUnderscore(a: string, x: string, b: string, y: string)
    requires '_' !in x && '_' !in y
    requires a + "_" + x == b + "_" + y
    ensures a == b && x == y
  {
    var s := a + "_" + x;
    TrailingRunAfter(a, x);
    TrailingRunAfter(b, y);
    assert a == s[..|a|] == b;
    assert x == s[|a| + 1..] == y;
  }

  predicate AllDigits(s: string) {
    forall q :: 0 <= q < |s| ==> '0' <= s[q] <= '9'
  }

  /** `c` ends in an underscore followed by one or more decimal digits, the
      shape the renaming gives a repeated name. */
  predicate HasCountSuffix(c: string) {
    exists p :: 0 <= p < |c| - 1 && c[p] == '_' && AllDigits(c[p + 1..])
  }

  /** A renamed repeat has a count suffix. */
  lemma RenamedHasCountSuffix(c: string, k: nat)
    ensures HasCountSuffix(c + "_" + NatToString(k))
  {
    var r := c + "_" + NatToString(k);
    assert r[|c|] == '_' && r[|c| + 1..] == NatToString(k);
  }

  /** When no column name already ends in an underscore and digits, the
      renamed names are all different. */
  lemma DedupUnique(cols: seq<string>)
    requires forall i :: 0 <= i < |cols| ==> !HasCountSuffix(cols[i])
    ensures forall i, j :: 0 <= i < j < |cols| ==> Deduped(cols)[i] != Deduped(cols)[j]
  {
    forall i, j | 0 <= i < j < |cols|
      ensures Deduped(cols)[i] != Deduped(cols)[j]
    {
      var ki, kj := multiset(cols[..i])[cols[i]], multiset(cols[..j])[cols[j]];
      var ri, rj := RenamedColumn(cols, i), RenamedColumn(cols, j);
      if cols[i] == cols[j] {
        assert cols[..j] == cols[..i] + [cols[i]] + cols[i + 1..j];
        assert kj > ki;
      }
      if ki > 0 && kj > 0 && ri == rj {
        assert '_' !in NatToString(ki) && '_' !in NatToString(kj);
        SplitAtLastUnderscore(cols[i], NatToString(ki), cols[j], NatToString(kj));
        NatToStringInjective(ki, kj);
      }
      if ki == 0 && kj > 0 {
        RenamedHasCountSuffix(cols[j], kj);
      }
      if ki > 0 && kj == 0 {
        RenamedHasCountSuffix(cols[i], ki);
      }
    }
  }

  // ---------------------------------------------------------------------------
  // The loaded table
  // ---------------------------------------------------------------------------

  /** The contents of the inventory file: its header and its rows. */
  datatype RawTable = RawTable(columns: seq<string>, rows: seq<RawRow>)

  /** The loaded table: de-duplicated column names and normalised rows. */
  datatype Frame = Frame(columns: seq<string>, rows: seq<TractorHead>)

  /** Every row normalised, in file order. */
  function NormalizeRows(rows: seq<RawRow>): (r: seq<TractorHead>)
    ensures |r| == |rows|
  {
    if rows == [] then [] else [NormalizeRow(rows[0])] + NormalizeRows(rows[1..])
  }

  lemma {:induction false} NormalizeRowsAt(rows: seq<RawRow>, i: int)
    requires 0 <= i < |rows|
    ensures NormalizeRows(rows)[i] == NormalizeRow(rows[i])
  {
    var tail := NormalizeRows(rows[1..]);
    assert NormalizeRows(rows) == [NormalizeRow(rows[0])] + tail;
    if i > 0 {
      NormalizeRowsAt(rows[1..], i - 1);
      assert rows[1..][i - 1] == rows[i];
      assert NormalizeRows(rows)[i] == tail[i - 1];
    }
  }

  /** What `load_inventory` makes of the file's contents. */
  function Ingest(t: RawTable): (f: Frame)
    ensures |f.rows| == |t.rows| && |f.columns| == |t.columns|
  {
    Frame(Deduped(t.columns), NormalizeRows(t.rows))
  }

  /** The process-wide table, loaded on first use. */
  class InventoryStore {
    /** What the inventory file holds; reading it is not modelled. */
    const file: RawTable
    /** The loaded table (`_df`), `None` until the first load. */
    var df: Option<Frame>

    /** Only `load_inventory` sets the cache, so a cached table is always
        the file's. */
    ghost predicate Valid()
      reads this
    {
      df.None? || df == Some(Ingest(file))
    }

    constructor (file: RawTable)
      ensures this.file == file && df == None && Valid()
    {
      this.file := file;
      df := None;
    }

    /** `load_inventory`: (re)reads and normalises the file and keeps the result. */
    method LoadInventory() returns (frame: Frame)
      modifies this
      ensures frame == Ingest(file) && df == Some(frame) && Valid()
    {
      var names := DedupColumns(file.columns);
      var rows := NormalizeRows(file.rows);
      frame := Frame(names, rows);
      df := Some(frame);
    }

    /** The table every call sees: the cached one, or the file's once loaded. */
    ghost function Table(): (t: Frame)
      reads this
      ensures Valid() ==> t == Ingest(file)
    {
      if df.Some? then df.value else Ingest(file)
    }

    /** `get_dataframe`: loads the file only when nothing is loaded yet, and
        otherwise returns the cached table unchanged. */
    method GetDataframe() returns (frame: Frame)
      requires Valid()
      modifies this
      ensures Valid() && frame == Ingest(file)
      ensures frame == old(Table()) && df == Some(frame)
      ensures old(df).Some? ==> df == old(df)
    {
      if df.None? {
        frame := LoadInventory();
      } else {
        frame := df.value;
      }
    }

    /** `get_vehicle_by_id`. */
    method GetVehicleById(id: int) returns (v: Option<TractorHead>)
      requires Valid()
      modifies this
      ensures Valid()
      ensures df == Some(old(Table())) && (old(df).Some? ==> df == old(df))
      ensures v == FindById(old(Table()).rows, id)
    {
      var frame := GetDataframe();
      v := FindById(frame.rows, id);
    }

    /** `get_all_vehicles`: every row of the table, in table order. */
    method GetAllVehicles() returns (vehicles: seq<TractorHead>)
      requires Valid()
      modifies this
      ensures Valid()
      ensures df == Some(old(Table())) && (old(df).Some? ==> df == old(df))
      ensures vehicles == old(Table()).rows
    {
      var frame := GetDataframe();
      vehicles := frame.rows;
    }

    /** `get_unique_values`. */
    method GetUniqueValues(column: string) returns (values: seq<Value>)
      requires Valid()
      modifies this
      ensures Valid()
      ensures df == Some(old(Table())) && (old(df).Some? ==> df == old(df))
      ensures values == UniqueValues(old(Table()), column)
    {
      var frame := GetDataframe();
      values := UniqueValues(frame, column);
    }
  }

  /** Two calls in a row: the second does not reload and sees the same table. */
  method GetDataframeTwice(store: InventoryStore) returns (first: Frame, second: Frame)
    requires store.Valid()
    modifies store
    ensures store.Valid()
    ensures first == second && store.df == Some(first)
  {
    first := store.GetDataframe();
    second := store.GetDataframe();
  }

  // ---------------------------------------------------------------------------
  // Lookup by identifier
  // ---------------------------------------------------------------------------

  /** The position of the first row with this identifier, or -1. */
  function FirstIndex(rows: seq<TractorHead>, id: int): (k: int)
    ensures -1 <= k < |rows|
    ensures k >= 0 ==> rows[k].vehicleId == id
    ensures forall j :: 0 <= j < |rows| && (k < 0 || j < k) ==> rows[j].vehicleId != id
  {
    if rows == [] then -1
    else if rows[0].vehicleId == id then 0
    else
      var k := FirstIndex(rows[1..], id);
      assert forall j :: 1 <= j < |rows| ==> rows[j] == rows[1..][j - 1];
      if k < 0 then -1 else k + 1
  }

  /** The first row with this identifier, or `None` when there is none
      (`df[df["vehicle_id"] == id]`, then its first row). */
  function FindById(rows: seq<TractorHead>, id: int): (r: Option<TractorHead>)
    ensures r.None? <==> forall k :: 0 <= k < |rows| ==> rows[k].vehicleId != id
    ensures r.Some? ==> r.value.vehicleId == id && r.value in rows
    ensures r.Some? ==> r.value == rows[FirstIndex(rows, id)]
  {
    var k := FirstIndex(rows, id);
    if k < 0 then None else Some(rows[k])
  }

  // ---------------------------------------------------------------------------
  // Distinct values of a column
  // ---------------------------------------------------------------------------

  /** A non-null value of one column. */
  datatype Value = VBool(b: bool) | VInt(n: int) | VText(s: string)

  function IntValue(o: Option<int>): Option<Value> {
    if o.Some? then Some(VInt(o.value)) else None
  }

  function TextValue(o: Option<string>): Option<Value> {
    if o.Some? then Some(VText(o.value)) else None
  }

  function BoolValue(o: Option<bool>): Option<Value> {
    if o.Some? then Some(VBool(o.value)) else None
  }

  /** The cell of `column` in a row: `None` for a null cell and for a name the
      record does not carry. */
  function ColumnValue(v: TractorHead, column: string): Option<Value> {
    if column == "vehicle_id" then Some(VInt(v.vehicleId))
    else if column == "euro" then IntValue(v.euro)
    else if column == "model" then TextValue(v.model)
    else if column == "model_extended" then TextValue(v.modelExtended)
    else if column == "brand" then TextValue(v.brand)
    else if column == "configuration" then TextValue(v.configuration)
    else if column == "cabin" then TextValue(v.cabin)
    else if column == "length" then IntValue(v.length)
    else if column == "width" then IntValue(v.width)
    else if column == "height" then IntValue(v.height)
    else if column == "power" then IntValue(v.power)
    else if column == "mega" then IntValue(v.mega)
    else if column == "mileage" then IntValue(v.mileage)
    else if column == "wheelbase" then IntValue(v.wheelbase)
    else if column == "gearbox" then TextValue(v.gearbox)
    else if column == "registered_at" then TextValue(v.registeredAt)
    else if column == "retarder" then BoolValue(v.retarder)
    else if column == "internet_price" then IntValue(v.internetPrice)
    else if column == "is_new" then BoolValue(v.isNew)
    else if column == "production_at" then TextValue(v.productionAt)
    else if column == "fuel" then TextValue(v.fuel)
    else if column == "has_crane" then BoolValue(v.hasCrane)
    else if column == "bed_amount" then IntValue(v.bedAmount)
    else if column == "tank_amount" then IntValue(v.tankAmount)
    else if column == "has_hydraulics" then BoolValue(v.hasHydraulics)
    else if column == "is_damaged" then BoolValue(v.isDamaged)
    else if column == "suspension" then TextValue(v.suspension)
    else if column == "driver_side" then TextValue(v.driverSide)
    else if column == "has_airco" then BoolValue(v.hasAirco)
    else if column == "total_weight" then IntValue(v.totalWeight)
    else if column == "net_weight" then IntValue(v.netWeight)
    else None
  }

  /** Python's order on text: by code point, a proper prefix first. */
  predicate TextLess(a: string, b: string)
    decreases |a|
  {
    b != [] && (a == [] || a[0] < b[0] || (a[0] == b[0] && TextLess(a[1..], b[1..])))
  }

  /** Python's order within one column: False before True, numbers by value,
      text by code point. (A column never mixes kinds; the kinds are ordered
      among themselves only to make the order total.) */
  predicate ValueLess(x: Value, y: Value) {
    match (x, y)
    case (VBool(a), VBool(b)) => !a && b
    case (VInt(a), VInt(b)) => a < b
    case (VText(a), VText(b)) => TextLess(a, b)
    case (VBool(_), _) => true
    case (VInt(_), VText(_)) => true
    case _ => false
  }

  lemma {:induction false} TextLessIrreflexive(a: string)
    ensures !TextLess(a, a)
  {
    if a != [] {
      TextLessIrreflexive(a[1..]);
    }
  }

  lemma {:induction false} TextLessTransitive(a: string, b: string, c: string)
    requires TextLess(a, b) && TextLess(b, c)
    ensures TextLess(a, c)
  {
    if a != [] && a[0] == b[0] && b[0] == c[0] {
      TextLessTransitive(a[1..], b[1..], c[1..]);
    }
  }

  lemma {:induction false} TextLessTotal(a: string, b: string)
    requires a != b
    ensures TextLess(a, b) || TextLess(b, a)
  {
    if a != [] && b != [] && a[0] == b[0] {
      assert a == [a[0]] + a[1..] && b == [b[0]] + b[1..];
      TextLessTotal(a[1..], b[1..]);
    }
  }

  lemma ValueLessTransitive(x: Value, y: Value, z: Value)
    requires ValueLess(x, y) && ValueLess(y, z)
    ensures ValueLess(x, z)
  {
    if x.VText? && y.VText? && z.VText? {
      TextLessTransitive(x.s, y.s, z.s);
    }
  }

  lemma ValueLessTotal(x: Value, y: Value)
    requires x != y
    ensures ValueLess(x, y) || ValueLess(y, x)
  {
    if x.VText? && y.VText? {
      TextLessTotal(x.s, y.s);
    }
  }

  lemma ValueLessIrreflexive(x: Value)
    ensures !ValueLess(x, x)
  {
    if x.VText? {
      TextLessIrreflexive(x.s);
    }
  }

  predicate StrictlyIncreasing(s: seq<Value>) {
    forall i, j :: 0 <= i < j < |s| ==> ValueLess(s[i], s[j])
  }

  /** `x` put in its place in an increasing list without duplicates. */
  function InsertDistinct(x: Value, s: seq<Value>): (r: seq<Value>)
    requires StrictlyIncreasing(s)
    ensures StrictlyIncreasing(r)
    ensures forall y :: y in r <==> y == x || y in s
  {
    if s == [] then [x]
    else if x == s[0] then s
    else if ValueLess(x, s[0]) then
      assert forall j :: 0 < j < |s| ==> ValueLess(x, s[j]) by {
        forall j | 0 < j < |s| ensures ValueLess(x, s[j]) {
          ValueLessTransitive(x, s[0], s[j]);
        }
      }
      [x] + s
    else
      ValueLessTotal(x, s[0]);
      var rest := InsertDistinct(x, s[1..]);
      assert forall y :: y in rest ==> ValueLess(s[0], y) by {
        forall y | y in rest ensures ValueLess(s[0], y) {
          if y != x {
            var j :| 0 <= j < |s[1..]| && s[1..][j] == y;
            assert s[j + 1] == y;
          }
        }
      }
      assert s == [s[0]] + s[1..];
      [s[0]] + rest
  }

  /** `sorted(set(values))`: the distinct values in increasing order. */
  function SortedDistinct(values: seq<Value>): (r: seq<Value>)
    ensures StrictlyIncreasing(r)
    ensures forall y :: y in r <==> y in values
  {
    if values == [] then []
    else
      assert values == [values[0]] + values[1..];
      InsertDistinct(values[0], SortedDistinct(values[1..]))
  }

  /** `df[column].dropna()`: the non-null cells of a column, in row order. */
  function ColumnValues(rows: seq<TractorHead>, column: string): (r: seq<Value>)
    ensures forall y :: y in r <==> exists k :: 0 <= k < |rows| && ColumnValue(rows[k], column) == Some(y)
  {
    if rows == [] then []
    else
      var rest := ColumnValues(rows[1..], column);
      assert forall k :: 1 <= k < |rows| ==> rows[k] == rows[1..][k - 1];
      var c := ColumnValue(rows[0], column);
      if c.Some? then [c.value] + rest else rest
  }

  /** `get_unique_values`: nothing for a column the table does not have;
      otherwise every non-null value of the column once, in increasing order. */
  function UniqueValues(frame: Frame, column: string): (r: seq<Value>)
    ensures column !in frame.columns ==> r == []
    ensures StrictlyIncreasing(r)
    ensures forall i, j :: 0 <= i < j < |r| ==> r[i] != r[j]
    ensures column in frame.columns ==>
              forall y :: y in r <==> exists k :: 0 <= k < |frame.rows| && ColumnValue(frame.rows[k], column) == Some(y)
  {
    if column !in frame.columns then []
    else
      var r := SortedDistinct(ColumnValues(frame.rows, column));
      assert forall i, j :: 0 <= i < j < |r| ==> r[i] != r[j] by {
        forall i, j | 0 <= i < j < |r| ensures r[i] != r[j] {
          ValueLessIrreflexive(r[i]);
        }
      }
      r
  }
}

=== FILE: schemas.dfy ===
/** The record and filter types of the tractor-head finder, and the two text
    views of a record (`to_summary`, `to_detail`) reduced to their branches. */
module Schemas {
  import opened Wrappers

  /** One tractor head of the inventory. Every attribute except the identifier
      is optional, and `None` means "unknown", never zero or false. Prices are
      whole euros. */
  datatype TractorHead = TractorHead(
    vehicleId: int,
    euro: Option<int>,
    model: Option<string>,
    modelExtended: Option<string>,
    brand: Option<string>,
    configuration: Option<string>,
    cabin: Option<string>,
    length: Option<int>,
    width: Option<int>,
    height: Option<int>,
    power: Option<int>,
    mega: Option<int>,
    mileage: Option<int>,
    wheelbase: Option<int>,
    gearbox: Option<string>,
    registeredAt: Option<string>,
    retarder: Option<bool>,
    internetPrice: Option<int>,
    isNew: Option<bool>,
    productionAt: Option<string>,
    fuel: Option<string>,
    hasCrane: Option<bool>,
    bedAmount: Option<int>,
    tankAmount: Option<int>,
    hasHydraulics: Option<bool>,
    isDamaged: Option<bool>,
    suspension: Option<string>,
    driverSide: Option<string>,
    hasAirco: Option<bool>,
    totalWeight: Option<int>,
    netWeight: Option<int>)

  /** A record built from its identifier alone: every other attribute unknown. */
  function NewTractorHead(id: int): (v: TractorHead)
    ensures v.vehicleId == id
    ensures v.brand.None? && v.model.None? && v.modelExtended.None? && v.configuration.None? && v.cabin.None?
    ensures v.euro.None? && v.gearbox.None? && v.fuel.None? && v.suspension.None?
    ensures v.internetPrice.None? && v.power.None? && v.mileage.None? && v.bedAmount.None? && v.totalWeight.None?
    ensures v.isNew.None? && v.isDamaged.None? && v.retarder.None? && v.hasAirco.None?
  {
    TractorHead(id, None, None, None, None, None, None, None, None, None, None,
                None, None, None, None, None, None, None, None, None, None,
                None, None, None, None, None, None, None, None, None, None)
  }

  /** The structured search request. An absent field does not filter;
      `hasRetarder` and `hasAirco` are accepted but never applied. */
  datatype SearchFilters = SearchFilters(
    brand: Option<string>,
    model: Option<string>,
    configuration: Option<string>,
    euro: Option<int>,
    gearbox: Option<string>,
    fuel: Option<string>,
    cabin: Option<string>,
    minPrice: Option<int>,
    maxPrice: Option<int>,
    minPower: Option<int>,
    maxPower: Option<int>,
    minMileage: Option<int>,
    maxMileage: Option<int>,
    isNew: Option<bool>,
    hasRetarder: Option<bool>,
    hasAirco: Option<bool>,
    minBeds: Option<int>,
    isDamaged: Option<bool>,
    sortBy: Option<string>,
    limit: int)

  /** `SearchFilters()` with no arguments. */
  function DefaultFilters(): (f: SearchFilters)
    ensures f.sortBy == Some("price_asc") && f.limit == 5
    ensures f.isDamaged.None? && f.minPrice.None? && f.maxPrice.None? && f.isNew.None?
  {
    SearchFilters(None, None, None, None, None, None, None, None, None, None,
                  None, None, None, None, None, None, None, None, Some("price_asc"), 5)
  }

  // Python truthiness of the optional attributes the views test.

  predicate TruthyInt(o: Option<int>) {
    o.Some? && o.value != 0
  }

  /** Set and not empty; also the test for a text filter to take part. */
  predicate TruthyText(o: Option<string>) {
    o.Some? && o.value != ""
  }

  /** A price is shown as an amount only when it is known and positive. */
  predicate HasListedPrice(v: TractorHead) {
    v.internetPrice.Some? && v.internetPrice.value > 0
  }

  /** One rendered value. Number formatting (thousands separators, units) is
      not modelled: `Amount` keeps the number and the unit it is shown with,
      and `NoneText` is Python's rendering "None" of an unknown value. */
  datatype Cell = Text(s: string) | Amount(n: int, unit: string) | NoneText

  function TextCell(o: Option<string>): Cell {
    if o.Some? then Text(o.value) else NoneText
  }

  function AmountCell(o: Option<int>, unit: string): Cell {
    if o.Some? then Amount(o.value, unit) else NoneText
  }

  function OptionText(o: Option<string>): string {
    if o.Some? then o.value else "None"
  }

  /** "<brand> <model_extended or model>". */
  function DisplayName(v: TractorHead): string {
    OptionText(v.brand) + " " + OptionText(if TruthyText(v.modelExtended) then v.modelExtended else v.model)
  }

  /** The price cell: the amount, or `onRequest` when the price is unknown or not positive. */
  function PriceCell(v: TractorHead, onRequest: string): Cell {
    if HasListedPrice(v) then Amount(v.internetPrice.value, "EUR") else Text(onRequest)
  }

  /** The mileage cell: the distance, or "N/A" when it is unknown or zero. */
  function MileageCell(v: TractorHead): Cell {
    if TruthyInt(v.mileage) then Amount(v.mileage.value, "km") else Text("N/A")
  }

  /** "Yes" only for a flag known to be true; false and unknown both read "No". */
  function YesNo(flag: Option<bool>): Cell {
    Text(if flag == Some(true) then "Yes" else "No")
  }

  /** The fields of the one-line summary, in display order. */
  datatype Summary = Summary(
    vehicleId: int, name: string, configuration: Cell, cabin: Cell, power: Cell,
    euro: Cell, gearbox: Cell, fuel: Cell, mileage: Cell, price: Cell)

  /** `to_summary`. */
  function ToSummary(v: TractorHead): (s: Summary)
    ensures s.vehicleId == v.vehicleId
    ensures s.price == Text("Price on request") <==> v.internetPrice.None? || v.internetPrice.value <= 0
    ensures s.price != Text("Price on request") ==> s.price == Amount(v.internetPrice.value, "EUR") && v.internetPrice.value > 0
    ensures s.mileage == Text("N/A") <==> v.mileage.None? || v.mileage.value == 0
  {
    Summary(v.vehicleId, DisplayName(v), TextCell(v.configuration), TextCell(v.cabin),
            AmountCell(v.power, "HP"), AmountCell(v.euro, ""), TextCell(v.gearbox),
            TextCell(v.fuel), MileageCell(v), PriceCell(v, "Price on request"))
  }

  /** A line of the detailed view; `Blank` stands for the empty string that
      `to_detail` produces for an optional line and then drops. */
  datatype DetailLine = Heading(name: string, vehicleId: int) | Entry(caption: string, value: Cell) | Blank

  /** The lines of `to_detail` that are always present. */
  function FixedLines(v: TractorHead): (r: seq<DetailLine>)
    ensures |r| == 12 && forall i :: 0 <= i < |r| ==> !r[i].Blank?
  {
    [ Heading(DisplayName(v), v.vehicleId),
      Entry("Configuration", TextCell(v.configuration)),
      Entry("Cabin", TextCell(v.cabin)),
      Entry("Power", AmountCell(v.power, "HP")),
      Entry("Euro norm", AmountCell(v.euro, "")),
      Entry("Gearbox", TextCell(v.gearbox)),
      Entry("Fuel", TextCell(v.fuel)),
      Entry("Mileage", MileageCell(v)),
      Entry("Price", PriceCell(v, "On request")),
      Entry("New", YesNo(v.isNew)),
      Entry("Retarder", YesNo(v.retarder)),
      Entry("Air conditioning", YesNo(v.hasAirco)) ]
  }

  function BedsLine(v: TractorHead): DetailLine {
    if TruthyInt(v.bedAmount) then Entry("Beds", Amount(v.bedAmount.value, "")) else Blank
  }

  function SuspensionLine(v: TractorHead): DetailLine {
    if TruthyText(v.suspension) then Entry("Suspension", Text(v.suspension.value)) else Blank
  }

  function TotalWeightLine(v: TractorHead): DetailLine {
    if TruthyInt(v.totalWeight) then Entry("Total weight", Amount(v.totalWeight.value, "kg")) else Blank
  }

  /** All lines of `to_detail` before the empty ones are dropped. */
  function DetailLines(v: TractorHead): seq<DetailLine> {
    FixedLines(v) + [BedsLine(v), SuspensionLine(v), TotalWeightLine(v)]
  }

  /** The comprehension `line for line in lines if line`. */
  function DropBlank(lines: seq<DetailLine>): (r: seq<DetailLine>)
    ensures |r| <= |lines|
    ensures forall i :: 0 <= i < |r| ==> !r[i].Blank?
  {
    if lines == [] then []
    else (if lines[0].Blank? then [] else [lines[0]]) + DropBlank(lines[1..])
  }

  /** Dropping blanks piecewise is dropping them from the whole. */
  lemma {:induction false} DropBlankAppend(a: seq<DetailLine>, b: seq<DetailLine>)
    ensures DropBlank(a + b) == DropBlank(a) + DropBlank(b)
  {
    if a != [] {
      assert (a + b)[1..] == a[1..] + b;
      DropBlankAppend(a[1..], b);
    } else {
      assert a + b == b;
    }
  }

  /** A list with no blank line is left as it is. */
  lemma {:induction false} DropBlankKeeps(a: seq<DetailLine>)
    requires forall i :: 0 <= i < |a| ==> !a[i].Blank?
    ensures DropBlank(a) == a
  {
    if a != [] {
      DropBlankKeeps(a[1..]);
    }
  }

  function KeepIf(present: bool, line: DetailLine): seq<DetailLine> {
    if present then [line] else []
  }

  /** The head of a list survives exactly when it is not blank. */
  lemma DropBlankCons(line: DetailLine, rest: seq<DetailLine>)
    ensures DropBlank([line] + rest) == KeepIf(!line.Blank?, line) + DropBlank(rest)
  {
    assert ([line] + rest)[1..] == rest;
  }

  /** `to_detail`. */
  function ToDetail(v: TractorHead): (d: seq<DetailLine>)
    ensures |d| <= 15 && forall i :: 0 <= i < |d| ==> !d[i].Blank?
  {
    DropBlank(DetailLines(v))
  }

  /** Blanks dropped from a blank-free head followed by three lines. */
  lemma DropBlankAfterFixed(fixed: seq<DetailLine>, b: DetailLine, s: DetailLine, w: DetailLine)
    requires forall i :: 0 <= i < |fixed| ==> !fixed[i].Blank?
    ensures DropBlank(fixed + [b, s, w])
            == fixed + (KeepIf(!b.Blank?, b) + (KeepIf(!s.Blank?, s) + KeepIf(!w.Blank?, w)))
  {
    var kb, ks, kw := KeepIf(!b.Blank?, b), KeepIf(!s.Blank?, s), KeepIf(!w.Blank?, w);
    var t1 := [w];
    var t2 := [s] + t1;
    var t3 := [b] + t2;
    assert t1 == [w] + [];
    DropBlankCons(w, []);
    assert DropBlank(t1) == kw;
    DropBlankCons(s, t1);
    DropBlankCons(b, t2);
    assert DropBlank(t3) == kb + (ks + kw);
    assert t3 == [b, s, w];
    DropBlankAppend(fixed, t3);
    DropBlankKeeps(fixed);
  }

  /** The twelve fixed lines of `to_detail` always appear; the Beds,
      Suspension and Total weight lines appear exactly when their attribute is
      known and truthy (not zero, not the empty text). */
  lemma DetailShape(v: TractorHead)
    ensures ToDetail(v) == FixedLines(v)
                           + (KeepIf(TruthyInt(v.bedAmount), BedsLine(v))
                           + (KeepIf(TruthyText(v.suspension), SuspensionLine(v))
                           + KeepIf(TruthyInt(v.totalWeight), TotalWeightLine(v))))
  {
    DropBlankAfterFixed(FixedLines(v), BedsLine(v), SuspensionLine(v), TotalWeightLine(v));
  }

  /** The New, Retarder and Air conditioning lines read "Yes" exactly for a
      flag known to be true, and "No" both for false and for unknown. */
  lemma DetailFlagLines(v: TractorHead)
    ensures |ToDetail(v)| >= 12
    ensures ToDetail(v)[9].Entry? && ToDetail(v)[9].caption == "New"
    ensures ToDetail(v)[9].value == Text("Yes") <==> v.isNew == Some(true)
    ensures v.isNew != Some(true) ==> ToDetail(v)[9].value == Text("No")
    ensures ToDetail(v)[10].Entry? && ToDetail(v)[10].caption == "Retarder"
    ensures ToDetail(v)[10].value == Text("Yes") <==> v.retarder == Some(true)
    ensures v.retarder != Some(true) ==> ToDetail(v)[10].value == Text("No")
    ensures ToDetail(v)[11].Entry? && ToDetail(v)[11].caption == "Air conditioning"
    ensures ToDetail(v)[11].value == Text("Yes") <==> v.hasAirco == Some(true)
    ensures v.hasAirco != Some(true) ==> ToDetail(v)[11].value == Text("No")
  {
    DetailShape(v);
    var fixed := FixedLines(v);
    assert ToDetail(v)[9] == fixed[9] && ToDetail(v)[10] == fixed[10] && ToDetail(v)[11] == fixed[11];
  }

}

=== FILE: search_inventory.dfy ===
/** The query engine: the filter predicates of `_apply_filters`, the ranking
    and truncation that follow them, and the three entry points built on the
    store (`search_inventory_direct`, `get_vehicle_details`,
    `compare_vehicles`) with the comparison table. */
module SearchInventory {
  import opened Wrappers
  import opened Strings
  import opened Schemas
  import opened DataLoader

  // ---------------------------------------------------------------------------
  // The filter predicates, one per rule
  // ---------------------------------------------------------------------------

  /** Damaged vehicles are left out unless the caller asks for them; a
      vehicle whose damage is unknown is kept. */
  predicate DamageOk(f: SearchFilters, v: TractorHead) {
    f.isDamaged == Some(true) || v.isDamaged != Some(true)
  }

  /** Any price bound also demands a known, positive price. */
  predicate PricedOk(f: SearchFilters, v: TractorHead) {
    (f.minPrice.None? && f.maxPrice.None?) || HasListedPrice(v)
  }

  /** Brand: equal ignoring case; an unknown brand compares as "". */
  predicate BrandOk(f: SearchFilters, v: TractorHead) {
    !TruthyText(f.brand) || Upper(v.brand.GetOr("")) == Upper(f.brand.value)
  }

  /** Model: contains the filter text, ignoring case. */
  predicate ModelOk(f: SearchFilters, v: TractorHead) {
    !TruthyText(f.model) || Contains(Upper(v.model.GetOr("")), Upper(f.model.value))
  }

  predicate ConfigurationOk(f: SearchFilters, v: TractorHead) {
    !TruthyText(f.configuration) || Upper(v.configuration.GetOr("")) == Upper(f.configuration.value)
  }

  predicate EuroOk(f: SearchFilters, v: TractorHead) {
    f.euro.None? || v.euro == f.euro
  }

  predicate GearboxOk(f: SearchFilters, v: TractorHead) {
    !TruthyText(f.gearbox) || Lower(v.gearbox.GetOr("")) == Lower(f.gearbox.value)
  }

  predicate FuelOk(f: SearchFilters, v: TractorHead) {
    !TruthyText(f.fuel) || Lower(v.fuel.GetOr("")) == Lower(f.fuel.value)
  }

  /** The cabin words that all stand for a cabin with beds. */
  const SleeperKeywords: seq<string> :=
    ["SLEEPER", "SPACE", "HIGHLINE", "GLOBETROTTER", "GIGASPACE", "TOPLINE", "SUPER",
     "BIGSPACE", "STREAMSPACE", "LONG", "L-CAB", "R-SERIES", "S-SERIES"]

  predicate IsSleeperCabin(cabin: string) {
    exists k :: 0 <= k < |SleeperKeywords| && Contains(cabin, SleeperKeywords[k])
  }

  /** Cabin: "sleeper" (any case) matches any cabin named with one of the
      sleeper words; any other text matches cabins containing it. */
  predicate CabinOk(f: SearchFilters, v: TractorHead) {
    !TruthyText(f.cabin) ||
      var want := Upper(f.cabin.value);
      var have := Upper(v.cabin.GetOr(""));
      if want == "SLEEPER" then IsSleeperCabin(have) else Contains(have, want)
  }

  /** An inclusive lower bound; an unknown value fails every bound. */
  predicate AtLeast(x: Option<int>, bound: Option<int>) {
    bound.None? || (x.Some? && x.value >= bound.value)
  }

  predicate AtMost(x: Option<int>, bound: Option<int>) {
    bound.None? || (x.Some? && x.value <= bound.value)
  }

  predicate PriceRangeOk(f: SearchFilters, v: TractorHead) {
    AtLeast(v.internetPrice, f.minPrice) && AtMost(v.internetPrice, f.maxPrice)
  }

  predicate PowerRangeOk(f: SearchFilters, v: TractorHead) {
    AtLeast(v.power, f.minPower) && AtMost(v.power, f.maxPower)
  }

  predicate MileageRangeOk(f: SearchFilters, v: TractorHead) {
    AtLeast(v.mileage, f.minMileage) && AtMost(v.mileage, f.maxMileage)
  }

  /** New: only vehicles known to be new; not new: every other vehicle. */
  predicate IsNewOk(f: SearchFilters, v: TractorHead) {
    f.isNew.None? || (if f.isNew.value then v.isNew == Some(true) else v.isNew != Some(true))
  }

  predicate MinBedsOk(f: SearchFilters, v: TractorHead) {
    AtLeast(v.bedAmount, f.minBeds)
  }

  /** The whole mask: every rule at once. The retarder and air-conditioning
      filters are switched off in the source and take no part. */
  predicate Matches(f: SearchFilters, v: TractorHead) {
    && DamageOk(f, v) && PricedOk(f, v) && BrandOk(f, v) && ModelOk(f, v)
    && ConfigurationOk(f, v) && EuroOk(f, v) && GearboxOk(f, v) && FuelOk(f, v)
    && CabinOk(f, v) && PriceRangeOk(f, v) && PowerRangeOk(f, v)
    && MileageRangeOk(f, v) && IsNewOk(f, v) && MinBedsOk(f, v)
  }

  /** `df[mask]`: the matching rows, in table order. */
  function Select(rows: seq<TractorHead>, f: SearchFilters): (r: seq<TractorHead>)
    ensures forall i :: 0 <= i < |r| ==> Matches(f, r[i])
    ensures multiset(r) <= multiset(rows)
  {
    if rows == [] then []
    else
      assert rows == [rows[0]] + rows[1..];
      (if Matches(f, rows[0]) then [rows[0]] else []) + Select(rows[1..], f)
  }

  /** Every matching row is selected as often as it occurs; no other row is. */
  lemma {:induction false} SelectCount(rows: seq<TractorHead>, f: SearchFilters, v: TractorHead)
    ensures multiset(Select(rows, f))[v] == if Matches(f, v) then multiset(rows)[v] else 0
  {
    if rows != [] {
      assert rows == [rows[0]] + rows[1..];
      SelectCount(rows[1..], f, v);
    }
  }

  /** Two filters that agree on every row select the same rows. */
  lemma {:induction false} SelectCongruent(rows: seq<TractorHead>, f: SearchFilters, g: SearchFilters)
    requires forall k :: 0 <= k < |rows| ==> (Matches(f, rows[k]) <==> Matches(g, rows[k]))
    ensures Select(rows, f) == Select(rows, g)
  {
    if rows != [] {
      assert forall k :: 1 <= k < |rows| ==> rows[k] == rows[1..][k - 1];
      SelectCongruent(rows[1..], f, g);
    }
  }

  // ---------------------------------------------------------------------------
  // Ranking
  // ---------------------------------------------------------------------------

  datatype SortOrder = PriceAsc | PriceDesc | MileageAsc | PowerDesc

  /** The sort order asked for; anything not recognised sorts by price. */
  function OrderOf(sortBy: Option<string>): (o: SortOrder)
    ensures o == PriceDesc <==> sortBy == Some("price_desc")
    ensures o == MileageAsc <==> sortBy == Some("mileage_asc")
    ensures o == PowerDesc <==> sortBy == Some("power_desc")
  {
    if sortBy == Some("price_desc") then PriceDesc
    else if sortBy == Some("mileage_asc") then MileageAsc
    else if sortBy == Some("power_desc") then PowerDesc
    else PriceAsc
  }

  predicate Ascending(o: SortOrder) {
    o == PriceAsc || o == MileageAsc
  }

  /** The value a vehicle is ranked by; `None` ranks last. For ascending
      price a price of 0 counts as unknown. */
  function SortKey(o: SortOrder, v: TractorHead): (k: Option<int>)
    ensures o == PriceAsc ==> (k.None? <==> v.internetPrice in {None, Some(0)})
    ensures o == PriceAsc && k.Some? ==> k == v.internetPrice
    ensures o == PriceDesc ==> k == v.internetPrice
    ensures o == MileageAsc ==> k == v.mileage
    ensures o == PowerDesc ==> k == v.power
  {
    match o
    case PriceAsc => if v.internetPrice == Some(0) then None else v.internetPrice
    case PriceDesc => v.internetPrice
    case MileageAsc => v.mileage
    case PowerDesc => v.power
  }

  /** `x` comes strictly before `y` in this order. */
  predicate RanksBefore(o: SortOrder, x: TractorHead, y: TractorHead) {
    var kx, ky := SortKey(o, x), SortKey(o, y);
    kx.Some? && (ky.None? || (if Ascending(o) then kx.value < ky.value else kx.value > ky.value))
  }

  /** No vehicle is followed by one that ranks before it. */
  predicate Sorted(o: SortOrder, s: seq<TractorHead>) {
    forall i, j :: 0 <= i < j < |s| ==> !RanksBefore(o, s[j], s[i])
  }

  /** Ranking is a strict weak order: never both ways, and "not before" chains. */
  lemma RanksBeforeOrder(o: SortOrder, x: TractorHead, y: TractorHead, z: TractorHead)
    ensures RanksBefore(o, x, y) ==> !RanksBefore(o, y, x)
    ensures !RanksBefore(o, x, y) && !RanksBefore(o, y, z) ==> !RanksBefore(o, x, z)
  {
  }

  /** A vehicle that no vehicle of a ranked list ranks before can head it. */
  lemma SortedCons(o: SortOrder, y: TractorHead, s: seq<TractorHead>)
    requires Sorted(o, s)
    requires forall k :: 0 <= k < |s| ==> !RanksBefore(o, s[k], y)
    ensures Sorted(o, [y] + s)
  {
    var t := [y] + s;
    forall i, j | 0 <= i < j < |t|
      ensures !RanksBefore(o, t[j], t[i])
    {
      assert t[j] == s[j - 1];
      if i > 0 {
        assert t[i] == s[i - 1];
      }
    }
  }

  /** When `x` does not rank after the head of a ranked list, nothing in the
      list ranks before `x`. */
  lemma NothingBefore(o: SortOrder, x: TractorHead, s: seq<TractorHead>)
    requires Sorted(o, s) && s != [] && !RanksBefore(o, s[0], x)
    ensures forall k :: 0 <= k < |s| ==> !RanksBefore(o, s[k], x)
  {
    forall k | 0 <= k < |s|
      ensures !RanksBefore(o, s[k], x)
    {
      RanksBeforeOrder(o, s[k], s[0], x);
    }
  }

  /** Nothing in a list made of the tail of a ranked list and one vehicle
      ranked after its head ranks before that head. */
  lemma NothingBeforeHead(o: SortOrder, x: TractorHead, s: seq<TractorHead>, rest: seq<TractorHead>)
    requires Sorted(o, s) && s != [] && RanksBefore(o, s[0], x)
    requires multiset(rest) == multiset(s[1..]) + multiset{x}
    ensures forall k :: 0 <= k < |rest| ==> !RanksBefore(o, rest[k], s[0])
  {
    forall k | 0 <= k < |rest|
      ensures !RanksBefore(o, rest[k], s[0])
    {
      assert rest[k] in multiset(rest);
      if rest[k] != x {
        var j :| 0 <= j < |s[1..]| && s[1..][j] == rest[k];
        assert s[j + 1] == rest[k];
      } else {
        RanksBeforeOrder(o, s[0], x, x);
      }
    }
  }

  /** `x` placed after the vehicles that rank before it. */
  function Insert(o: SortOrder, x: TractorHead, s: seq<TractorHead>): (r: seq<TractorHead>)
    requires Sorted(o, s)
    ensures Sorted(o, r)
    ensures multiset(r) == multiset(s) + multiset{x}
  {
    if s == [] then [x]
    else if RanksBefore(o, s[0], x) then
      var rest := Insert(o, x, s[1..]);
      assert multiset(s) == multiset{s[0]} + multiset(s[1..]) by {
        assert s == [s[0]] + s[1..];
      }
      NothingBeforeHead(o, x, s, rest);
      SortedCons(o, s[0], rest);
      [s[0]] + rest
    else
      NothingBefore(o, x, s);
      SortedCons(o, x, s);
      [x] + s
  }

  /** `sort_values`, as a stable insertion sort with unknown keys last. */
  function SortBy(o: SortOrder, s: seq<TractorHead>): (r: seq<TractorHead>)
    ensures Sorted(o, r)
    ensures multiset(r) == multiset(s) && |r| == |s|
  {
    if s == [] then []
    else
      assert s == [s[0]] + s[1..];
      Insert(o, s[0], SortBy(o, s[1..]))
  }

  /** In a sorted list the vehicles with an unknown key come last. For
      ascending price that includes every vehicle priced 0. */
  lemma UnknownKeysLast(o: SortOrder, s: seq<TractorHead>, i: int, j: int)
    requires Sorted(o, s) && 0 <= i < j < |s|
    requires SortKey(o, s[i]).None?
    ensures SortKey(o, s[j]).None?
    ensures o == PriceAsc ==> s[j].internetPrice in {None, Some(0)}
  {
    assert !RanksBefore(o, s[j], s[i]);
  }

  // ---------------------------------------------------------------------------
  // Truncation and the whole query
  // ---------------------------------------------------------------------------

  function Min(a: int, b: int): int {
    if a <= b then a else b
  }

  /** `head(n)`: the first `n` rows; a negative `n` drops the last `-n` rows. */
  function Head<T>(s: seq<T>, n: int): (r: seq<T>)
    ensures |r| <= |s| && r == s[..|r|]
    ensures n >= 0 ==> |r| == Min(n, |s|)
    ensures n < 0 ==> |r| == if |s| + n <= 0 then 0 else |s| + n
  {
    if n >= 0 then s[..Min(n, |s|)]
    else if |s| + n <= 0 then []
    else s[..|s| + n]
  }

  /** Every element of a list that is a sub-multiset of another is in it. */
  lemma SubMultisetElements<T>(a: seq<T>, b: seq<T>, i: int)
    requires multiset(a) <= multiset(b) && 0 <= i < |a|
    ensures a[i] in b
  {
    assert a[i] in multiset(a);
  }

  /** A prefix of a list is part of it. */
  lemma PrefixMultiset<T>(s: seq<T>, k: int)
    requires 0 <= k <= |s|
    ensures multiset(s) == multiset(s[..k]) + multiset(s[k..])
  {
    assert s == s[..k] + s[k..];
  }

  /** The matching rows in ranked order. */
  function Ranked(rows: seq<TractorHead>, f: SearchFilters): (s: seq<TractorHead>)
    ensures Sorted(OrderOf(f.sortBy), s)
    ensures multiset(s) == multiset(Select(rows, f)) && |s| == |Select(rows, f)|
    ensures forall i :: 0 <= i < |s| ==> Matches(f, s[i])
  {
    var s := SortBy(OrderOf(f.sortBy), Select(rows, f));
    assert forall i :: 0 <= i < |s| ==> Matches(f, s[i]) by {
      forall i | 0 <= i < |s| ensures Matches(f, s[i]) {
        SubMultisetElements(s, Select(rows, f), i);
      }
    }
    s
  }

  /** `_apply_filters`: select, sort, then cut to `limit`. */
  function ApplyFilters(rows: seq<TractorHead>, f: SearchFilters): (r: seq<TractorHead>)
    ensures forall i :: 0 <= i < |r| ==> Matches(f, r[i])
    ensures multiset(r) <= multiset(rows)
    ensures Sorted(OrderOf(f.sortBy), r)
    ensures f.limit >= 0 ==> |r| == Min(f.limit, |Select(rows, f)|)
  {
    var s := Ranked(rows, f);
    var r := Head(s, f.limit);
    PrefixMultiset(s, |r|);
    r
  }

  /** In a ranked list, an occurrence beyond the first `n` ranks no better
      than any of the first `n`. */
  lemma CutOffRanksLast(o: SortOrder, s: seq<TractorHead>, n: int, v: TractorHead)
    requires Sorted(o, s) && 0 <= n <= |s|
    requires multiset(s[..n])[v] < multiset(s)[v]
    ensures forall i :: 0 <= i < n ==> !RanksBefore(o, v, s[i])
  {
    PrefixMultiset(s, n);
    assert v in multiset(s[n..]);
    var j :| 0 <= j < |s[n..]| && s[n..][j] == v;
    assert s[n + j] == v;
  }

  /** The limit is applied after sorting: a matching vehicle that was cut
      off ranks no better than any vehicle that was returned. */
  lemma LimitAfterSort(rows: seq<TractorHead>, f: SearchFilters, v: TractorHead)
    requires multiset(ApplyFilters(rows, f))[v] < multiset(Select(rows, f))[v]
    ensures forall i :: 0 <= i < |ApplyFilters(rows, f)| ==>
              !RanksBefore(OrderOf(f.sortBy), v, ApplyFilters(rows, f)[i])
  {
    var s := Ranked(rows, f);
    var r := ApplyFilters(rows, f);
    assert r == s[..|r|];
    CutOffRanksLast(OrderOf(f.sortBy), s, |r|, v);
  }

  /** The mask reads neither the sort order, nor the limit, nor the retarder
      and air-conditioning filters; and a damage filter of "false" acts like
      none. */
  lemma MatchesIgnores(f: SearchFilters, v: TractorHead, g: SearchFilters)
    requires g.(sortBy := f.sortBy, limit := f.limit, hasRetarder := f.hasRetarder, hasAirco := f.hasAirco) == f
             || (g == f.(isDamaged := None) && f.isDamaged == Some(false))
    ensures Matches(f, v) <==> Matches(g, v)
  {
  }

  /** Raising the limit only appends: the smaller answer is a prefix of the
      larger one. */
  lemma LimitIsPrefix(rows: seq<TractorHead>, f: SearchFilters, n: int)
    requires 0 <= f.limit <= n
    ensures var small := ApplyFilters(rows, f);
            var large := ApplyFilters(rows, f.(limit := n));
            |small| <= |large| && small == large[..|small|]
  {
    forall k | 0 <= k < |rows|
      ensures Matches(f, rows[k]) <==> Matches(f.(limit := n), rows[k])
    {
      MatchesIgnores(f, rows[k], f.(limit := n));
    }
    SelectCongruent(rows, f, f.(limit := n));
    assert Ranked(rows, f) == Ranked(rows, f.(limit := n));
    HeadPrefix(Ranked(rows, f), f.limit, n);
  }

  lemma HeadPrefix<T>(s: seq<T>, m: int, n: int)
    requires 0 <= m <= n
    ensures |Head(s, m)| <= |Head(s, n)| && Head(s, m) == Head(s, n)[..|Head(s, m)|]
  {
  }

  /** The retarder and air-conditioning filters never change the answer. */
  lemma RetarderAircoIgnored(rows: seq<TractorHead>, f: SearchFilters, retarder: Option<bool>, airco: Option<bool>)
    ensures ApplyFilters(rows, f.(hasRetarder := retarder, hasAirco := airco)) == ApplyFilters(rows, f)
  {
    forall k | 0 <= k < |rows|
      ensures Matches(f, rows[k]) <==> Matches(f.(hasRetarder := retarder, hasAirco := airco), rows[k])
    {
      MatchesIgnores(f, rows[k], f.(hasRetarder := retarder, hasAirco := airco));
    }
    SelectCongruent(rows, f, f.(hasRetarder := retarder, hasAirco := airco));
  }

  /** Asking to exclude damaged vehicles is the same as not asking. */
  lemma DamageFalseIsDefault(rows: seq<TractorHead>, f: SearchFilters)
    ensures ApplyFilters(rows, f.(isDamaged := Some(false))) == ApplyFilters(rows, f.(isDamaged := None))
  {
    forall k | 0 <= k < |rows|
      ensures Matches(f.(isDamaged := Some(false)), rows[k]) <==> Matches(f.(isDamaged := None), rows[k])
    {
      MatchesIgnores(f.(isDamaged := Some(false)), rows[k], f.(isDamaged := None));
    }
    SelectCongruent(rows, f.(isDamaged := Some(false)), f.(isDamaged := None));
  }

  /** With the default damage setting no damaged vehicle is returned, while a
      vehicle of unknown damage is judged on the other rules alone; asking
      for damaged vehicles removes the damage rule altogether. */
  lemma DamageRule(f: SearchFilters, v: TractorHead)
    ensures f.isDamaged != Some(true) && Matches(f, v) ==> v.isDamaged != Some(true)
    ensures v.isDamaged == None ==> (Matches(f, v) <==> Matches(f.(isDamaged := Some(true)), v))
    ensures forall d :: Matches(f.(isDamaged := Some(true)), v) <==> Matches(f.(isDamaged := Some(true)), v.(isDamaged := d))
  {
  }

  /** The default filter keeps every vehicle not known to be damaged, ranks
      by ascending price and returns at most five. */
  lemma DefaultFiltersMeaning(rows: seq<TractorHead>, v: TractorHead)
    ensures Matches(DefaultFilters(), v) <==> v.isDamaged != Some(true)
    ensures OrderOf(DefaultFilters().sortBy) == PriceAsc
    ensures |ApplyFilters(rows, DefaultFilters())| <= 5
  {
  }

  /** Any price bound returns only vehicles with a known positive price
      inside the bounds: a vehicle "on request" is never among them. */
  lemma PriceBoundsResults(rows: seq<TractorHead>, f: SearchFilters, i: int)
    requires f.minPrice.Some? || f.maxPrice.Some?
    requires 0 <= i < |ApplyFilters(rows, f)|
    ensures var v := ApplyFilters(rows, f)[i];
            HasListedPrice(v)
            && (f.minPrice.Some? ==> v.internetPrice.value >= f.minPrice.value)
            && (f.maxPrice.Some? ==> v.internetPrice.value <= f.maxPrice.value)
            && ToSummary(v).price != Text("Price on request")
  {
  }

  /** A set text filter never matches a vehicle whose field is unknown, and
      otherwise demands the field's case-insensitive equality or containment. */
  lemma TextFiltersMeaning(f: SearchFilters, v: TractorHead)
    requires Matches(f, v)
    ensures TruthyText(f.brand) ==> v.brand.Some? && Upper(v.brand.value) == Upper(f.brand.value)
    ensures TruthyText(f.configuration) ==> v.configuration.Some? && Upper(v.configuration.value) == Upper(f.configuration.value)
    ensures TruthyText(f.gearbox) ==> v.gearbox.Some? && Lower(v.gearbox.value) == Lower(f.gearbox.value)
    ensures TruthyText(f.fuel) ==> v.fuel.Some? && Lower(v.fuel.value) == Lower(f.fuel.value)
    ensures TruthyText(f.model) ==> v.model.Some? && Contains(Upper(v.model.value), Upper(f.model.value))
    ensures TruthyText(f.cabin) ==> v.cabin.Some? && v.cabin.value != ""
    ensures TruthyText(f.cabin) && Upper(f.cabin.value) == "SLEEPER" ==> IsSleeperCabin(Upper(v.cabin.value))
    ensures TruthyText(f.cabin) && Upper(f.cabin.value) != "SLEEPER" ==> Contains(Upper(v.cabin.value), Upper(f.cabin.value))
    ensures f.euro.Some? ==> v.euro == f.euro
  {
  }

  /** Numeric bounds are inclusive and fail on an unknown value; "new" keeps
      only vehicles known to be new, "not new" keeps the rest. */
  lemma NumericFiltersMeaning(f: SearchFilters, v: TractorHead)
    requires Matches(f, v)
    ensures f.minPower.Some? ==> v.power.Some? && v.power.value >= f.minPower.value
    ensures f.maxPower.Some? ==> v.power.Some? && v.power.value <= f.maxPower.value
    ensures f.minMileage.Some? ==> v.mileage.Some? && v.mileage.value >= f.minMileage.value
    ensures f.maxMileage.Some? ==> v.mileage.Some? && v.mileage.value <= f.maxMileage.value
    ensures f.minBeds.Some? ==> v.bedAmount.Some? && v.bedAmount.value >= f.minBeds.value
    ensures f.isNew == Some(true) ==> v.isNew == Some(true)
    ensures f.isNew == Some(false) ==> v.isNew != Some(true)
  {
  }

  /** A record of which nothing but the identifier is known passes a filter
      exactly when the filter sets no text, number or bound and does not ask
      for new vehicles: an unknown value never satisfies a rule. */
  lemma UnknownRecordMatches(f: SearchFilters, id: int)
    ensures Matches(f, NewTractorHead(id)) <==>
      && !TruthyText(f.brand) && !TruthyText(f.model) && !TruthyText(f.configuration) && f.euro.None?
      && !TruthyText(f.gearbox) && !TruthyText(f.fuel) && !TruthyText(f.cabin)
      && f.minPrice.None? && f.maxPrice.None? && f.minPower.None? && f.maxPower.None?
      && f.minMileage.None? && f.maxMileage.None? && f.minBeds.None? && f.isNew != Some(true)
  {
    var v := NewTractorHead(id);
    if TruthyText(f.model) && Contains(Upper(""), Upper(f.model.value)) {
      ContainsShorter(Upper(""), Upper(f.model.value));
    }
    if TruthyText(f.cabin) && Upper(f.cabin.value) != "SLEEPER" && Contains(Upper(""), Upper(f.cabin.value)) {
      ContainsShorter(Upper(""), Upper(f.cabin.value));
    }
  }

  lemma GlobetrotterIsSleeper()
    ensures IsSleeperCabin("GLOBETROTTER XL")
  {
    assert SleeperKeywords[3] == "GLOBETROTTER";
    assert Contains("GLOBETROTTER XL", SleeperKeywords[3]);
  }

  lemma DayCabIsNotSleeper()
    ensures !IsSleeperCabin("DAY CAB")
  {
    var have := "DAY CAB";
    forall k | 0 <= k < |SleeperKeywords|
      ensures !Contains(have, SleeperKeywords[k])
    {
      var w := SleeperKeywords[k];
      if Contains(have, w) {
        ContainsFirstChar(have, w);
        ContainsShorter(have, w);
        assert false;
      }
    }
  }

  /** A cabin named after a sleeper word matches "sleeper" in any case; a day
      cab does not. */
  lemma SleeperExamples(f: SearchFilters, v: TractorHead)
    requires f.cabin == Some("Sleeper")
    ensures v.cabin == Some("GLOBETROTTER XL") ==> CabinOk(f, v)
    ensures v.cabin == Some("DAY CAB") ==> !CabinOk(f, v)
  {
    assert Upper("Sleeper") == "SLEEPER";
    if v.cabin == Some("GLOBETROTTER XL") {
      assert Upper("GLOBETROTTER XL") == "GLOBETROTTER XL";
      GlobetrotterIsSleeper();
    }
    if v.cabin == Some("DAY CAB") {
      assert Upper("DAY CAB") == "DAY CAB";
      DayCabIsNotSleeper();
    }
  }

  /** Rows that all match are all selected. */
  lemma {:induction false} SelectAll(rows: seq<TractorHead>, f: SearchFilters)
    requires forall k :: 0 <= k < |rows| ==> Matches(f, rows[k])
    ensures Select(rows, f) == rows
  {
    if rows != [] {
      assert forall k :: 1 <= k < |rows| ==> rows[k] == rows[1..][k - 1];
      SelectAll(rows[1..], f);
    }
  }

  /** Whatever its limit, the default filter only leaves out damaged vehicles. */
  lemma DefaultMatches(n: int, v: TractorHead)
    ensures Matches(DefaultFilters().(limit := n), v) <==> v.isDamaged != Some(true)
  {
  }

  /** Ranking by ascending price returns the cheapest listed vehicles: when
      a matching vehicle with a non-zero price was cut off by the limit,
      every returned vehicle has a known, non-zero price no higher than it. */
  lemma CheapestFirst(rows: seq<TractorHead>, f: SearchFilters, v: TractorHead, i: int)
    requires OrderOf(f.sortBy) == PriceAsc
    requires multiset(ApplyFilters(rows, f))[v] < multiset(Select(rows, f))[v]
    requires v.internetPrice.Some? && v.internetPrice.value != 0
    requires 0 <= i < |ApplyFilters(rows, f)|
    ensures var w := ApplyFilters(rows, f)[i];
            w.internetPrice.Some? && w.internetPrice.value != 0 && w.internetPrice.value <= v.internetPrice.value
  {
    LimitAfterSort(rows, f, v);
    PriceAscNotBefore(v, ApplyFilters(rows, f)[i]);
  }

  lemma PriceAscNotBefore(v: TractorHead, w: TractorHead)
    requires v.internetPrice.Some? && v.internetPrice.value != 0
    requires !RanksBefore(PriceAsc, v, w)
    ensures w.internetPrice.Some? && w.internetPrice.value != 0 && w.internetPrice.value <= v.internetPrice.value
  {
  }

  /** Ranking by ascending price puts vehicles priced 0 or unknown after all
      others in the answer. */
  lemma ZeroPriceLast(rows: seq<TractorHead>, f: SearchFilters, i: int, j: int)
    requires OrderOf(f.sortBy) == PriceAsc
    requires 0 <= i < j < |ApplyFilters(rows, f)|
    requires ApplyFilters(rows, f)[i].internetPrice in {None, Some(0)}
    ensures ApplyFilters(rows, f)[j].internetPrice in {None, Some(0)}
  {
    UnknownKeysLast(PriceAsc, ApplyFilters(rows, f), i, j);
  }

  // ---------------------------------------------------------------------------
  // Comparison table
  // ---------------------------------------------------------------------------

  /** The row captions of the comparison table. */
  const ComparisonCaptions: seq<string> :=
    ["Brand & Model", "Price", "Power", "Mileage", "Configuration", "Cabin", "Euro",
     "Gearbox", "Fuel", "New", "Retarder", "Air conditioning", "Beds", "Suspension"]

  /** A text shown as "N/A" when it is unknown or empty. */
  function TextOrNA(o: Option<string>): Cell {
    if TruthyText(o) then Text(o.value) else Text("N/A")
  }

  /** A number shown as "N/A" when it is unknown or 0. */
  function AmountOrNA(o: Option<int>, unit: string): Cell {
    if TruthyInt(o) then Amount(o.value, unit) else Text("N/A")
  }

  /** The cell of row `k` for one vehicle. */
  function FieldCell(k: nat, v: TractorHead): (c: Cell)
    requires k < |ComparisonCaptions|
    ensures k == 1 ==> c.Amount? || c == Text("On request")
    ensures 9 <= k <= 11 ==> c == Text("Yes") || c == Text("No")
  {
    match k
    case 0 => Text(DisplayName(v))
    case 1 => PriceCell(v, "On request")
    case 2 => AmountOrNA(v.power, "HP")
    case 3 => MileageCell(v)
    case 4 => TextOrNA(v.configuration)
    case 5 => TextOrNA(v.cabin)
    case 6 => AmountOrNA(v.euro, "")
    case 7 => TextOrNA(v.gearbox)
    case 8 => TextOrNA(v.fuel)
    case 9 => YesNo(v.isNew)
    case 10 => YesNo(v.retarder)
    case 11 => YesNo(v.hasAirco)
    case 12 => AmountOrNA(v.bedAmount, "")
    case _ => TextOrNA(v.suspension)
  }

  /** The branches of the comparison cells: "On request" exactly for a price
      that is unknown or not positive, "N/A" exactly for an unknown or empty
      value, and "Yes" only for a flag known to be true. */
  lemma FieldCellMeaning(v: TractorHead)
    ensures FieldCell(1, v) == Text("On request") <==> !HasListedPrice(v)
    ensures FieldCell(2, v) == Text("N/A") <==> v.power.None? || v.power.value == 0
    ensures FieldCell(3, v) == Text("N/A") <==> v.mileage.None? || v.mileage.value == 0
    ensures FieldCell(4, v) == Text("N/A") <==> v.configuration.None? || v.configuration.value in {"", "N/A"}
    ensures FieldCell(6, v) == Text("N/A") <==> v.euro.None? || v.euro.value == 0
    ensures FieldCell(12, v) == Text("N/A") <==> v.bedAmount.None? || v.bedAmount.value == 0
    ensures FieldCell(9, v) == Text("Yes") <==> v.isNew == Some(true)
    ensures FieldCell(10, v) == Text("Yes") <==> v.retarder == Some(true)
    ensures FieldCell(11, v) == Text("Yes") <==> v.hasAirco == Some(true)
  {
  }

  datatype ComparisonLine = Title | Rule(width: nat) | FieldRow(caption: string, values: seq<Cell>)

  /** Row `k` of the table: its caption and one cell per vehicle, in the
      order the vehicles were given. */
  function FieldRowOf(k: nat, vehicles: seq<TractorHead>): (line: ComparisonLine)
    requires k < |ComparisonCaptions|
    ensures line.FieldRow? && line.caption == ComparisonCaptions[k] && |line.values| == |vehicles|
    ensures forall i :: 0 <= i < |vehicles| ==> line.values[i] == FieldCell(k, vehicles[i])
  {
    FieldRow(ComparisonCaptions[k], seq(|vehicles|, i requires 0 <= i < |vehicles| => FieldCell(k, vehicles[i])))
  }

  /** The lines of the comparison text: a title, a rule, then one row per field. */
  function ComparisonTable(vehicles: seq<TractorHead>): (t: seq<ComparisonLine>)
    ensures |t| == 2 + |ComparisonCaptions| && t[0] == Title && t[1] == Rule(60)
    ensures forall k :: 0 <= k < |ComparisonCaptions| ==> t[k + 2] == FieldRowOf(k, vehicles)
  {
    [Title, Rule(60)] + seq(|ComparisonCaptions|, k requires 0 <= k < |ComparisonCaptions| => FieldRowOf(k, vehicles))
  }

  /** `_build_comparison_text`: one row per field appended in turn. */
  method BuildComparisonText(vehicles: seq<TractorHead>) returns (lines: seq<ComparisonLine>)
    ensures lines == ComparisonTable(vehicles)
  {
    lines := [Title, Rule(60)];
    for k := 0 to |ComparisonCaptions|
      invariant |lines| == k + 2 && lines[0] == Title && lines[1] == Rule(60)
      invariant forall j :: 0 <= j < k ==> lines[j + 2] == FieldRowOf(j, vehicles)
    {
      var values := seq(|vehicles|, i requires 0 <= i < |vehicles| => FieldCell(k, vehicles[i]));
      lines := lines + [FieldRow(ComparisonCaptions[k], values)];
    }
  }

  // ---------------------------------------------------------------------------
  // Comparison of several vehicles
  // ---------------------------------------------------------------------------

  datatype CompareOutcome =
    | TooFewIds
    | TooManyIds
    | VehiclesNotFound(missing: seq<int>)
    | Compared(vehicleCount: nat, vehicles: seq<TractorHead>, table: seq<ComparisonLine>)

  /** The ids, in the order given, that no row carries. */
  function Missing(rows: seq<TractorHead>, ids: seq<int>): (m: seq<int>)
    ensures |m| <= |ids|
  {
    if ids == [] then []
    else (if FindById(rows, ids[0]).None? then [ids[0]] else []) + Missing(rows, ids[1..])
  }

  /** An id is reported missing exactly when it was asked for and no row
      carries it. */
  lemma {:induction false} MissingMeaning(rows: seq<TractorHead>, ids: seq<int>, x: int)
    ensures x in Missing(rows, ids) <==> x in ids && FindById(rows, x).None?
  {
    if ids != [] {
      assert ids == [ids[0]] + ids[1..];
      MissingMeaning(rows, ids[1..], x);
    }
  }

  /** The vehicles found for the ids, in the order given. */
  function Found(rows: seq<TractorHead>, ids: seq<int>): (r: seq<TractorHead>)
    ensures |r| + |Missing(rows, ids)| == |ids|
  {
    if ids == [] then []
    else
      var x := FindById(rows, ids[0]);
      (if x.Some? then [x.value] else []) + Found(rows, ids[1..])
  }

  /** When no id is missing, the i-th vehicle found is the one the i-th id
      names. */
  lemma {:induction false} FoundMeaning(rows: seq<TractorHead>, ids: seq<int>)
    requires Missing(rows, ids) == []
    ensures forall i :: 0 <= i < |ids| ==>
              FindById(rows, ids[i]).Some? && Found(rows, ids)[i] == FindById(rows, ids[i]).value
  {
    if ids != [] {
      FoundMeaning(rows, ids[1..]);
      assert forall i :: 1 <= i < |ids| ==> ids[i] == ids[1..][i - 1];
    }
  }

  /** What `compare_vehicles` answers for these rows. */
  function Comparison(rows: seq<TractorHead>, ids: seq<int>): (out: CompareOutcome)
    ensures out == TooFewIds <==> |ids| < 2
    ensures out == TooManyIds <==> |ids| > 5
    ensures out.VehiclesNotFound? ==> out.missing != [] && out.missing == Missing(rows, ids)
    ensures out.Compared? ==>
              out.vehicleCount == |ids| == |out.vehicles|
              && (forall i :: 0 <= i < |ids| ==>
                    FindById(rows, ids[i]).Some? && out.vehicles[i] == FindById(rows, ids[i]).value
                    && out.vehicles[i].vehicleId == ids[i])
              && out.table == ComparisonTable(out.vehicles)
    ensures 2 <= |ids| <= 5 ==> (out.Compared? <==> forall x :: x in ids ==> FindById(rows, x).Some?)
  {
    if |ids| < 2 then TooFewIds
    else if |ids| > 5 then TooManyIds
    else if Missing(rows, ids) != [] then
      var x := Missing(rows, ids)[0];
      MissingMeaning(rows, ids, x);
      VehiclesNotFound(Missing(rows, ids))
    else
      assert forall x :: x in ids ==> FindById(rows, x).Some? by {
        forall x | x in ids ensures FindById(rows, x).Some? {
          MissingMeaning(rows, ids, x);
        }
      }
      var vs := Found(rows, ids);
      FoundMeaning(rows, ids);
      Compared(|ids|, vs, ComparisonTable(vs))
  }

  /** Repeated ids are compared as often as they are given. */
  lemma CompareKeepsDuplicates(rows: seq<TractorHead>, v: TractorHead)
    requires v in rows
    ensures var out := Comparison(rows, [v.vehicleId, v.vehicleId]);
            out.Compared? && out.vehicleCount == 2 && out.vehicles[0] == out.vehicles[1]
  {
    var out := Comparison(rows, [v.vehicleId, v.vehicleId]);
    assert FindById(rows, v.vehicleId).Some?;
  }

  /** Every missing id is reported, in the order given, with no vehicle data. */
  lemma CompareReportsAllMissing(rows: seq<TractorHead>, ids: seq<int>)
    requires 2 <= |ids| <= 5
    requires exists x :: x in ids && FindById(rows, x).None?
    ensures Comparison(rows, ids) == VehiclesNotFound(Missing(rows, ids))
  {
    var x :| x in ids && FindById(rows, x).None?;
    MissingMeaning(rows, ids, x);
  }

  // ---------------------------------------------------------------------------
  // Entry points on the store
  // ---------------------------------------------------------------------------

  /** `search_inventory_direct`: the query run on the (lazily loaded) table. */
  method SearchInventoryDirect(store: InventoryStore, f: SearchFilters) returns (vehicles: seq<TractorHead>)
    requires store.Valid()
    modifies store
    ensures store.Valid()
    ensures vehicles == ApplyFilters(old(store.Table()).rows, f)
    ensures store.df == Some(old(store.Table())) && (old(store.df).Some? ==> store.df == old(store.df))
  {
    var frame := store.GetDataframe();
    vehicles := ApplyFilters(frame.rows, f);
  }

  datatype Details = VehicleNotFound(id: int) | VehicleFound(vehicle: TractorHead)

  /** `get_vehicle_details`: the record, or a not-found answer naming the id. */
  method GetVehicleDetails(store: InventoryStore, id: int) returns (out: Details)
    requires store.Valid()
    modifies store
    ensures store.Valid()
    ensures store.df == Some(old(store.Table())) && (old(store.df).Some? ==> store.df == old(store.df))
    ensures out == VehicleNotFound(id) <==> forall k :: 0 <= k < |old(store.Table()).rows| ==> old(store.Table()).rows[k].vehicleId != id
    ensures out == (if FindById(old(store.Table()).rows, id).None? then VehicleNotFound(id)
                    else VehicleFound(FindById(old(store.Table()).rows, id).value))
  {
    var v := store.GetVehicleById(id);
    if v.None? {
      out := VehicleNotFound(id);
    } else {
      out := VehicleFound(v.value);
    }
  }

  /** `compare_vehicles`: the length is checked before anything is loaded,
      then the ids are resolved and, when all are found, the table is built. */
  method CompareVehicles(store: InventoryStore, ids: seq<int>) returns (out: CompareOutcome)
    requires store.Valid()
    modifies store
    ensures store.Valid()
    ensures out == Comparison(old(store.Table()).rows, ids)
    ensures (|ids| < 2 || |ids| > 5) ==> store.df == old(store.df)
    ensures 2 <= |ids| <= 5 ==> store.df == Some(old(store.Table())) && (old(store.df).Some? ==> store.df == old(store.df))
  {
    if |ids| < 2 {
      return TooFewIds;
    }
    if |ids| > 5 {
      return TooManyIds;
    }
    var vehicles, notFound := ResolveIds(store, ids);
    if notFound != [] {
      out := VehiclesNotFound(notFound);
    } else {
      var text := BuildComparisonText(vehicles);
      out := Compared(|vehicles|, vehicles, text);
    }
  }

  /** The loop of `compare_vehicles`: each id is looked up in turn, its
      vehicle appended to the found ones or the id to the missing ones. */
  method ResolveIds(store: InventoryStore, ids: seq<int>) returns (vehicles: seq<TractorHead>, notFound: seq<int>)
    requires ids != []
    requires store.Valid()
    modifies store
    ensures store.Valid()
    ensures vehicles == Found(old(store.Table()).rows, ids) && notFound == Missing(old(store.Table()).rows, ids)
    ensures store.df == Some(old(store.Table())) && (old(store.df).Some? ==> store.df == old(store.df))
  {
    ghost var table := store.Table();
    ghost var rows := table.rows;
    vehicles, notFound := [], [];
    for i := 0 to |ids|
      invariant store.Valid() && store.Table() == table
      invariant i == 0 ==> store.df == old(store.df)
      invariant i > 0 ==> store.df == Some(table)
      invariant old(store.df).Some? ==> store.df == old(store.df)
      invariant notFound == Missing(rows, ids[..i]) && vehicles == Found(rows, ids[..i])
    {
      var v := store.GetVehicleById(ids[i]);
      ResolveStep(rows, ids, i);
      if v.Some? {
        vehicles := vehicles + [v.value];
      } else {
        notFound := notFound + [ids[i]];
      }
    }
    assert ids[..|ids|] == ids;
  }

  /** One step of the loop: the next id extends the found vehicles or the
      missing ids. */
  lemma ResolveStep(rows: seq<TractorHead>, ids: seq<int>, i: int)
    requires 0 <= i < |ids|
    ensures var x := FindById(rows, ids[i]);
            && Missing(rows, ids[..i + 1]) == Missing(rows, ids[..i]) + (if x.None? then [ids[i]] else [])
            && Found(rows, ids[..i + 1]) == Found(rows, ids[..i]) + (if x.Some? then [x.value] else [])
  {
    assert ids[..i + 1] == ids[..i] + [ids[i]];
    MissingAppend(rows, ids[..i], ids[i]);
    FoundAppend(rows, ids[..i], ids[i]);
  }

  /** One more id adds itself to the missing ones exactly when no row
      carries it. */
  lemma {:induction false} MissingAppend(rows: seq<TractorHead>, ids: seq<int>, x: int)
    ensures Missing(rows, ids + [x]) == Missing(rows, ids) + (if FindById(rows, x).None? then [x] else [])
  {
    if ids != [] {
      assert (ids + [x])[1..] == ids[1..] + [x];
      MissingAppend(rows, ids[1..], x);
    }
  }

  /** One more id adds its vehicle to the found ones when a row carries it. */
  lemma {:induction false} FoundAppend(rows: seq<TractorHead>, ids: seq<int>, x: int)
    ensures Found(rows, ids + [x]) == Found(rows, ids) + (if FindById(rows, x).Some? then [FindById(rows, x).value] else [])
  {
    if ids != [] {
      assert (ids + [x])[1..] == ids[1..] + [x];
      FoundAppend(rows, ids[1..], x);
    }
  }
}

=== FILE: strings.dfy ===
/** Text helpers with the meaning the inventory code gives them in Python:
    `str.strip()`, `str.upper()` / `str.lower()` (ASCII letters only),
    substring containment, and the decimal text `str(n)` of an integer. */
module Strings {

  /** The characters Python's `str.strip()` removes. */
  predicate IsSpace(c: char) {
    || c == ' '
    || ('\t' <= c <= '\r')
    || ('\U{1C}' <= c <= '\U{1F}')
    || c == '\U{85}' || c == '\U{A0}' || c == '\U{1680}'
    || ('\U{2000}' <= c <= '\U{200A}')
    || c == '\U{2028}' || c == '\U{2029}' || c == '\U{202F}' || c == '\U{205F}' || c == '\U{3000}'
  }

  function StripStart(s: string): (r: string)
    ensures |r| <= |s| && r == s[|s| - |r|..]
    ensures r == [] || !IsSpace(r[0])
    ensures forall i :: 0 <= i < |s| - |r| ==> IsSpace(s[i])
  {
    if s != [] && IsSpace(s[0]) then StripStart(s[1..]) else s
  }

  function StripEnd(s: string): (r: string)
    ensures |r| <= |s| && r == s[..|r|]
    ensures r == [] || !IsSpace(r[|r| - 1])
    ensures forall i :: |r| <= i < |s| ==> IsSpace(s[i])
  {
    if s != [] && IsSpace(s[|s| - 1]) then StripEnd(s[..|s| - 1]) else s
  }

  /** `s.strip()`: `s` without its leading and trailing whitespace. */
  function Strip(s: string): (r: string)
    ensures r == [] || (!IsSpace(r[0]) && !IsSpace(r[|r| - 1]))
    ensures |r| <= |s|
  {
    StripStart(StripEnd(s))
  }

  /** Text with no whitespace at either end is its own stripped form. */
  lemma StripTrimmed(s: string)
    requires s == [] || (!IsSpace(s[0]) && !IsSpace(s[|s| - 1]))
    ensures Strip(s) == s
  {
  }

  /** One space on each side of stripped text is removed again. */
  lemma StripPadded(s: string)
    requires s != [] && !IsSpace(s[0]) && !IsSpace(s[|s| - 1])
    ensures Strip(" " + s + " ") == s
  {
    var p := " " + s + " ";
    assert p[..|p| - 1] == " " + s;
    assert StripEnd(p) == StripEnd(" " + s) == " " + s;
    assert (" " + s)[1..] == s;
    assert StripStart(" " + s) == StripStart(s) == s;
  }

  function UpperChar(c: char): char {
    if 'a' <= c <= 'z' then (c as int - 32) as char else c
  }

  function LowerChar(c: char): char {
    if 'A' <= c <= 'Z' then (c as int + 32) as char else c
  }

  function Upper(s: string): string {
    seq(|s|, i requires 0 <= i < |s| => UpperChar(s[i]))
  }

  function Lower(s: string): string {
    seq(|s|, i requires 0 <= i < |s| => LowerChar(s[i]))
  }

  /** Case mapping never turns a whitespace character into another one, so it
      commutes with stripping. */
  lemma UpperKeepsTrimmed(s: string)
    requires s == [] || (!IsSpace(s[0]) && !IsSpace(s[|s| - 1]))
    ensures Strip(Upper(s)) == Upper(s) && Strip(Lower(s)) == Lower(s)
  {
    StripTrimmed(Upper(s));
    StripTrimmed(Lower(s));
  }

  lemma UpperOfLower(s: string)
    ensures Upper(Lower(s)) == Upper(s) && Lower(Lower(s)) == Lower(s) && Upper(Upper(s)) == Upper(s)
    ensures Lower(Upper(s)) == Lower(s)
  {
  }

  /** Text without letters is left alone by both case mappings. */
  lemma CaseOfDigits(s: string)
    requires forall k :: 0 <= k < |s| ==> s[k] == '-' || s[k] == '.' || '0' <= s[k] <= '9'
    ensures Upper(s) == s && Lower(s) == s
  {
  }

  predicate IsLower(s: string) {
    forall i :: 0 <= i < |s| ==> !('A' <= s[i] <= 'Z')
  }

  predicate IsUpper(s: string) {
    forall i :: 0 <= i < |s| ==> !('a' <= s[i] <= 'z')
  }

  /** `pat in s` for strings: `pat` occurs in `s` as a contiguous piece. */
  predicate Contains(s: string, pat: string)
    decreases |s|
  {
    pat <= s || (s != [] && Contains(s[1..], pat))
  }

  /** A piece found in `s` is at most as long as `s`; so nothing but the
      empty text is found in the empty text. */
  lemma {:induction false} ContainsShorter(s: string, pat: string)
    requires Contains(s, pat)
    ensures |pat| <= |s|
  {
    if !(pat <= s) {
      ContainsShorter(s[1..], pat);
    }
  }

  /** A piece whose first character does not occur in `s` is not found in it. */
  lemma {:induction false} ContainsFirstChar(s: string, pat: string)
    requires pat != [] && Contains(s, pat)
    ensures pat[0] in s
  {
    if !(pat <= s) {
      ContainsFirstChar(s[1..], pat);
    } else {
      assert s[0] == pat[0];
    }
  }

  function DigitChar(d: nat): (c: char)
    requires d < 10
    ensures '0' <= c <= '9'
  {
    ('0' as int + d) as char
  }

  /** `str(n)` for a natural number: its decimal digits, most significant first. */
  function NatToString(n: nat): (r: string)
    ensures r != []
    ensures forall i :: 0 <= i < |r| ==> '0' <= r[i] <= '9'
    ensures n >= 10 <==> |r| >= 2
  {
    if n < 10 then [DigitChar(n)] else NatToString(n / 10) + [DigitChar(n % 10)]
  }

  /** `str(i)` for an integer: a minus sign before the digits of a negative one. */
  function IntToString(i: int): (r: string)
    ensures r != []
    ensures forall k :: 0 <= k < |r| ==> r[k] == '-' || '0' <= r[k] <= '9'
    ensures '0' <= r[|r| - 1] <= '9'
  {
    if i < 0 then "-" + NatToString(-i) else NatToString(i)
  }

  /** Different numbers have different decimal texts. */
  lemma {:induction false} NatToStringInjective(a: nat, b: nat)
    requires NatToString(a) == NatToString(b)
    ensures a == b
  {
    var sa, sb := NatToString(a), NatToString(b);
    if a >= 10 && b >= 10 {
      assert sa[|sa| - 1] == sb[|sb| - 1];
      assert DigitChar(a % 10) == DigitChar(b % 10);
      assert sa[..|sa| - 1] == NatToString(a / 10);
      assert sb[..|sb| - 1] == NatToString(b / 10);
      NatToStringInjective(a / 10, b / 10);
    } else if a < 10 && b < 10 {
      assert sa[0] == DigitChar(a) && sb[0] == DigitChar(b);
    }
  }

  /** The only integer whose text is "1" is 1. */
  lemma IntToStringIsOne(i: int)
    ensures IntToString(i) == "1" <==> i == 1
  {
    if i >= 0 && IntToString(i) == "1" {
      assert NatToString(1) == "1";
      NatToStringInjective(i, 1);
    }
  }
}

=== FILE: wrappers.dfy ===
/** The optional value used for every attribute that may be unknown. */
module Wrappers {

  datatype Option<+T> = None | Some(value: T) {

    /** The wrapped value, or `default` when there is none. */
    function GetOr(default: T): T {
      match this
      case Some(v) => v
      case None => default
    }
  }
}
